=== FILE: README.md ===
# PSR-6 cache pools over Redis, modelled in Dafny

The repository has two PSR-6 cache-item-pool implementations that sit on top of a
Redis client:

- **php-redis-cache** (`RedisCacheItem`, `RedisCacheItemPool`, `InvalidArgumentException`):
  - it validates argument types;
  - it rejects a second `saveDeferred` of a key that is already queued;
  - `commit` is the conjunction of the saves it makes.
- **the older implementation under `src/`** (`CacheItem`, `CacheItemPool`):
  - its setters store their arguments unchecked;
  - `saveDeferred` overwrites;
  - `commit` drains the queue;
  - `save` passes a TTL of `now - expiration`.

The model keeps each file as its own module and states what the code does. Some of
that is not ideal cache behaviour:

- in php-redis-cache, `expiresAfter(int)` counts days;
- `save` there ignores expiration;
- `commit` there never empties the queue;
- a hit item fetched by the older pool cannot be saved again, because its expiration
  is a raw integer.

Modules:

| file | module | models |
|---|---|---|
| results.dfy | `Results` | `Option`, and `Result` for calls that throw |
| php.dfy | `Php` | PHP values passed to untyped parameters (`Mixed`), `gettype`, `'+N days'` date arithmetic |
| invalid_argument.dfy | `InvalidArgument` | the exception and its `sprintf`/`implode` message |
| redis_cache_item.dfy | `RedisCacheItem` | the php-redis-cache item |
| redis_cache_item_pool.dfy | `RedisCacheItemPool` | the php-redis-cache pool |
| cache_item.dfy | `CacheItem` | the older item |
| cache_item_pool.dfy | `CacheItemPool` | the older pool |

How the external parts are represented:

- **Time** is a parameter `now: int`, in seconds. Instants and intervals are integer
  seconds, and a day is 86400 s.
- **The Redis client** is the map it holds, plus oracles that are passed as parameters:
  - `ttl(key)` is what the server reports as the remaining TTL;
  - `reply(key, value)` is the reply to a SET (php-redis-cache only).
- **Writes.** A SET is always applied. `del` always removes its keys and `flushdb` always
  empties the map.
- **Objects.** PHP objects are mutated in place. Here every setter returns the updated
  value instead, and an exception is an `Err`. A single-key call that throws changes
  nothing. php-redis-cache's `deleteItems` and the older pool's `commit` keep the
  work they did before the throw (`DeleteItemsStore`, `DrainQueue`, `DrainWrites`).

Two behaviours of php-redis-cache that the model keeps as written:

- `commit` keeps the queue, so committing twice re-sends it
  (`RedisCacheItemPool.CommitTwice`).
- `set` on a miss leaves `isHit` false with a non-null payload, although the docblock
  of `get()` (php-redis-cache/src/RedisCacheItem.php:75) says a miss must return null
  (`RedisCacheItem.SetOnMissKeepsMiss`).

The files under `src/` do not declare `strict_types`, so a value passed to the `string`
parameter of `CacheItem`'s constructor is coerced (`Php.StringArgument`).

## Model

| member | source | states |
|---|---|---|
| `Php.TypeName` | php-redis-cache/src/RedisCacheItem.php:149 | `gettype` reports "NULL", "boolean", "integer" and "string" exactly for null, booleans, integers and strings, and "object" for dates and intervals. |
| `Php.Decimal` | src/CacheItem.php:24 | The form PHP gives an integer is canonical: an optional `-`, then digits with no leading zero, and never "-0". |
| `Php.DecimalRoundTrip` | src/CacheItem.php:24 | The decimal form PHP gives an integer reads back as that integer. |
| `Php.CanonicalIsDecimal` | src/CacheItem.php:24 | A canonical string is the decimal form of the integer it reads as, so a canonical string reading back as i can only be the decimal form of i. |
| `Php.StringArgument` | src/CacheItem.php:24 | Passing a value to a `string` parameter in coercive mode succeeds exactly for strings, integers and booleans. A string passes unchanged, an integer becomes the canonical decimal that reads back as it, and a boolean becomes "1" or "". |
| `InvalidArgument.Implode` | php-redis-cache/src/Exception/InvalidArgumentException.php:15 | `implode` of no pieces is empty. Of n ≥ 1 pieces, it is as long as the pieces plus n − 1 glues, and starts with the first piece. |
| `InvalidArgument.Message` | php-redis-cache/src/Exception/InvalidArgumentException.php:12-16 | The message starts with `Invalid type "` + provided + `"` and ends with `".` |
| `InvalidArgument.MessageSingleExpected` | php-redis-cache/src/Exception/InvalidArgumentException.php:15 | With one accepted type, the expected part is that name alone, with no separator. |
| `InvalidArgument.SplitImplode` | php-redis-cache/src/Exception/InvalidArgumentException.php:15 | Joining n ≥ 1 quote-free names with `" or "` puts exactly the separators between consecutive names, in list order, so splitting gives the list back. |
| `InvalidArgument.SeparatorCount` | php-redis-cache/src/Exception/InvalidArgumentException.php:15 | Joining n ≥ 1 quote-free names contains 2(n − 1) double quotes, that is, n − 1 separators. |
| `InvalidArgument.MessageRoundTrip` | php-redis-cache/src/Exception/InvalidArgumentException.php:12-16 | When nothing is quoted, the provided type and the expected list can be read back from the message. The format is unambiguous. |
| `RedisCacheItem.CreateEmpty` | php-redis-cache/src/RedisCacheItem.php:29-44 | `createEmpty(k)` is a miss with key k, null value and no expiration. |
| `RedisCacheItem.Create` | php-redis-cache/src/RedisCacheItem.php:51-54 | `create(k, v)` is a hit with key k, value v and no expiration. |
| `RedisCacheItem.Set` | php-redis-cache/src/RedisCacheItem.php:114-119 | After `set(v)`, `get()` is v. Key, hit flag and expiration are unchanged. |
| `RedisCacheItem.SetDefaultExpiration` | php-redis-cache/src/RedisCacheItem.php:197-200 | The expiration becomes now + 60 days. Key, value and hit flag are unchanged. |
| `RedisCacheItem.ExpiresAtError` | php-redis-cache/src/RedisCacheItem.php:149-152 | The exception names the argument's gettype, and its message is `Invalid type "<type>", expected "DateTimeInterface" or "null".` |
| `RedisCacheItem.ExpiresAfterError` | php-redis-cache/src/RedisCacheItem.php:190-194 | The exception names the argument's gettype, and its message is `Invalid type "<type>", expected "DateTimeInterface" or "int" or "null".` |
| `RedisCacheItem.ExpiresAt` | php-redis-cache/src/RedisCacheItem.php:135-153 | An instant is stored exactly. Null gives now + 60 days. Any other argument throws with the gettype name and `[DateTimeInterface, null]`. Success never changes key, value or hit flag. |
| `RedisCacheItem.ExpiresAfter` | php-redis-cache/src/RedisCacheItem.php:170-200 | An int n gives now + n days. An interval i gives now + i. Null gives now + 60 days. Any other argument throws with `[DateTimeInterface, int, null]`. Key, value and hit flag are kept. |
| `RedisCacheItem.ExpiresAfterIsExpiresAt` | php-redis-cache/src/RedisCacheItem.php:137-199 | Every accepted `expiresAfter` equals `expiresAt` of an instant computed from now. Null picks the same default in both. |
| `RedisCacheItem.ExpiresAfterIntIsNotSeconds` | php-redis-cache/src/RedisCacheItem.php:178-179 | For n ≠ 0, `expiresAfter(n)` is not now + n seconds. |
| `RedisCacheItem.ExpiresAfterRejectsInstant` | php-redis-cache/src/RedisCacheItem.php:184-194 | `expiresAfter` throws on a `DateTimeInterface` although its message lists that type. `expiresAt` accepts one. |
| `RedisCacheItem.SetOnMissKeepsMiss` | php-redis-cache/src/RedisCacheItem.php:114-119 | `set` on a miss keeps it a miss, now with the new payload. |
| `RedisCacheItem.ExpiresAtIdempotent` | php-redis-cache/src/RedisCacheItem.php:135-147 | At the same instant, a second successful `expiresAt` with the same argument changes nothing. |
| `RedisCacheItem.RunKeepsIdentity` | php-redis-cache/src/RedisCacheItem.php:65-68 | No sequence of setter calls changes the key or the hit flag. Afterwards `get()` is the last `set` argument, or the original value if there was none. |
| `RedisCacheItemPool.NewPool` | php-redis-cache/src/RedisCacheItemPool.php:21-25 | A new pool has an empty deferred queue over the given store. |
| `RedisCacheItemPool.GetItem` | php-redis-cache/src/RedisCacheItemPool.php:43-57 | A non-string key throws (gettype, `[string]`). An absent key gives `createEmpty(k)`. A present key gives a hit with the stored value and `expiresAfter(ttl)` applied. |
| `RedisCacheItemPool.GetItems` | php-redis-cache/src/RedisCacheItemPool.php:75-80 | The result has the same length and order as the input, and element i is `getItem(keys[i])`. It fails iff some key is not a string, with the first such key's exception. |
| `RedisCacheItemPool.HasItem` | php-redis-cache/src/RedisCacheItemPool.php:99-106 | A non-string key throws. Otherwise the result is true iff the key is in the store. |
| `RedisCacheItemPool.Clear` | php-redis-cache/src/RedisCacheItemPool.php:114-119 | The store becomes empty and the result is true. The queue is untouched. |
| `RedisCacheItemPool.DeleteItem` | php-redis-cache/src/RedisCacheItemPool.php:134-143 | A non-string key throws before anything changes. Otherwise only that key leaves the store, and the result (`!hasItem`) is true. |
| `RedisCacheItemPool.DeleteItems` | php-redis-cache/src/RedisCacheItemPool.php:157-168 | The call throws iff some key is not a string, with the first such key's exception. Otherwise the result is the conjunction of the individual results, which is true. The queue is untouched. |
| `RedisCacheItemPool.DeleteItemsStore` | php-redis-cache/src/RedisCacheItemPool.php:159-167 | Exactly the string keys before the first non-string key leave the store, so a throw comes after those deletes. On success that is every key. |
| `RedisCacheItemPool.Save` | php-redis-cache/src/RedisCacheItemPool.php:179-182 | The payload is written under the key and no other key changes. The result is true iff the reply is `'OK'`. The queue is untouched. |
| `RedisCacheItemPool.SaveDeferred` | php-redis-cache/src/RedisCacheItemPool.php:193-202 | If the key is already queued, the result is false and nothing changes, so the original item stays queued. Otherwise the item is appended and the result is true. Distinct keys are preserved. |
| `RedisCacheItemPool.SaveAll` | php-redis-cache/src/RedisCacheItemPool.php:214-218 | Saving every item in order gives true iff every reply was `'OK'`. There is no short-circuit. |
| `RedisCacheItemPool.SaveAllKeeps` | php-redis-cache/src/RedisCacheItemPool.php:214-218 | The store gains exactly the written keys, and every other key is unchanged. |
| `RedisCacheItemPool.SaveAllStore` | php-redis-cache/src/RedisCacheItemPool.php:214-218 | Each written key holds the payload of the last item with that key. |
| `RedisCacheItemPool.Commit` | php-redis-cache/src/RedisCacheItemPool.php:210-221 | An empty queue gives true with no change. Otherwise every queued item is saved, and the result is true iff all were acknowledged. The queue is left as it was. |
| `RedisCacheItemPool.SaveIgnoresExpiration` | php-redis-cache/src/RedisCacheItemPool.php:181 | Items that differ only in expiration save identically. |
| `RedisCacheItemPool.SaveThenGetItem` | php-redis-cache/src/RedisCacheItemPool.php:179-182 | After a save, `getItem` of the key is a hit carrying the saved payload. |
| `RedisCacheItemPool.DeleteItemTwice` | php-redis-cache/src/RedisCacheItemPool.php:140-142 | Deleting twice returns true both times and leaves the same store. |
| `RedisCacheItemPool.ClearThenHasItem` | php-redis-cache/src/RedisCacheItemPool.php:114-119 | After `clear`, `hasItem` is false for every key and the queue survives. |
| `RedisCacheItemPool.CommitTwice` | php-redis-cache/src/RedisCacheItemPool.php:210-221 | Because commit does not drain the queue, a second commit re-sends it and leaves the same store and queue, whatever the server replies the second time. Its result depends only on the second replies. |
| `RedisCacheItemPool.DeferredScenario` | php-redis-cache/src/RedisCacheItemPool.php:193-221 | The second `saveDeferred` of key "a" is refused, and `commit` persists the first payload. |
| `CacheItem.New` | src/CacheItem.php:24-30 | The constructor stores key, the string value, hit flag and expiration, which the getters return. |
| `CacheItem.Construct` | src/CacheItem.php:24-30 | Constructing with any PHP value succeeds exactly for strings, integers and booleans, and the stored payload is then a string. A string is kept as is. An integer is stored as the canonical decimal that reads back as it, and `true` and `false` as "1" and "". |
| `CacheItem.ConstructCoerces` | src/CacheItem.php:24 | The integer 5 is stored as "5" and `true` as "1", while null throws a `TypeError`. |
| `CacheItem.NewMiss` | src/CacheItem.php:24-30 | A key-only construction has value `''`, a miss and null expiration. |
| `CacheItem.Set` | src/CacheItem.php:59-62 | `set` replaces only the value. |
| `CacheItem.ExpiresAt` | src/CacheItem.php:67-70 | `expiresAt(x)` stores x verbatim, of any type. Nothing else changes. |
| `CacheItem.ExpiresAfter` | src/CacheItem.php:75-78 | `expiresAfter(t)` sets the expiration to the instant now + t seconds. Nothing else changes. |
| `CacheItem.ExpiresAfterUnitsDiffer` | src/CacheItem.php:75-78 | This implementation and php-redis-cache agree on `expiresAfter(n)` only for n = 0. |
| `CacheItem.RunKeepsIdentity` | src/CacheItem.php:24-83 | No sequence of setter calls changes the key or the hit flag. |
| `CacheItemPool.NewPool` | src/CacheItemPool.php:22-25 | A new pool has an empty deferred queue over the given store. |
| `CacheItemPool.GetItem` | src/CacheItemPool.php:30-41 | A non-string key throws. An absent key gives `new CacheItem(k)`. A present key gives a hit whose expiration is the raw ttl integer. A string payload is returned as is. A payload the `string` parameter refuses throws a `TypeError` naming its type. |
| `CacheItemPool.GetItems` | src/CacheItemPool.php:46-49 | Element i is `getItem(keys[i])`, in input order. The call fails iff some `getItem` fails, and always when some key is not a string. It fails with the exception of the first failing key. |
| `CacheItemPool.HasItem` | src/CacheItemPool.php:54-57 | The result is true iff the key is in the store. |
| `CacheItemPool.Clear` | src/CacheItemPool.php:62-65 | The store becomes empty, the deferred items are untouched, and the result is true. |
| `CacheItemPool.DeleteItem` | src/CacheItemPool.php:70-73 | Only the key is removed. The result is 1 if it existed, 0 otherwise. |
| `CacheItemPool.DeleteItems` | src/CacheItemPool.php:78-81 | Exactly the given keys are removed and other entries are unchanged. The result is the number of given keys that existed. |
| `CacheItemPool.SaveTtl` | src/CacheItemPool.php:92-101 | A null expiration gives no TTL. An instant e gives TTL = now − e. |
| `CacheItemPool.SaveTtlSign` | src/CacheItemPool.php:100 | The TTL is positive exactly when the expiration lies in the past. |
| `CacheItemPool.Save` | src/CacheItemPool.php:86-104 | A null or date expiration writes value and TTL and returns true. Any other expiration throws before the write, naming its type. |
| `CacheItemPool.Put` | src/CacheItemPool.php:111 | After the assignment, the key maps to the new item and other keys map as before. |
| `CacheItemPool.PutKeys` | src/CacheItemPool.php:111 | The queue's keys gain the item's key. The length is unchanged for an already queued key and grows by one for a new key. |
| `CacheItemPool.PutAppends` | src/CacheItemPool.php:111 | A new key is appended at the end of the queue. |
| `CacheItemPool.PutInPlace` | src/CacheItemPool.php:111 | In a queue with distinct keys, an already queued key's item is replaced at its own index. |
| `CacheItemPool.PutPlace` | src/CacheItemPool.php:111 | Both placements together: append for a new key, replace in place for a queued one. |
| `CacheItemPool.PutDistinct` | src/CacheItemPool.php:111 | Overwriting keeps queue keys distinct. |
| `CacheItemPool.SaveDeferred` | src/CacheItemPool.php:109-112 | The queued item under the key is replaced by the new one, and other queued keys are untouched. A new key goes at the end, and a queued key is replaced in its place. |
| `CacheItemPool.Unset` | src/CacheItemPool.php:123 | `unset` removes exactly that key from the queue. Every other key still finds the same item, and distinct keys stay distinct. |
| `CacheItemPool.UnsetAbsent` | src/CacheItemPool.php:123 | Unsetting a key that is not queued leaves the queue as it was. |
| `CacheItemPool.UnsetOrder` | src/CacheItemPool.php:123 | In a queue with distinct keys, unsetting item i's key leaves the items before and after it, in order. |
| `CacheItemPool.Drain` | src/CacheItemPool.php:120-124 | Each item is saved and then unset, in order. The result is true iff every expiration is null or a date. Otherwise the first undatable one stops the loop with its error. |
| `CacheItemPool.DrainQueue` | src/CacheItemPool.php:120-124 | The queue loses exactly the keys of the items the loop got through. |
| `CacheItemPool.DrainWrites` | src/CacheItemPool.php:120-124 | Every item the loop got through is in the store with its payload and TTL. |
| `CacheItemPool.DrainKeeps` | src/CacheItemPool.php:120-124 | Keys of items the loop did not reach are unchanged. |
| `CacheItemPool.DrainDistinct` | src/CacheItemPool.php:120-124 | The loop keeps queue keys distinct. |
| `CacheItemPool.DrainSurvivors` | src/CacheItemPool.php:120-124 | Every key the loop did not get through still finds the same queued item. |
| `CacheItemPool.Commit` | src/CacheItemPool.php:117-127 | If every deferred expiration is null or a date, the result is true and the queue is empty. Otherwise the first failing item's error propagates. The items before it are gone from the queue, and every other key still finds its item. Distinct queue keys stay distinct either way. When they are distinct, the queue left behind is exactly the deferred items from the failing one on, in order. |
| `CacheItemPool.DrainSuffixOf` | src/CacheItemPool.php:120-124 | Draining a queue with distinct keys over its own snapshot leaves exactly the items from the first undatable one on, in order. |
| `CacheItemPool.FailedCommitKeepsQueue` | src/CacheItemPool.php:117-127 | After a failed commit, the queue keys are still distinct and the failing item is still queued. |
| `CacheItemPool.CommitStore` | src/CacheItemPool.php:117-127 | A successful commit writes every deferred item and leaves other keys alone. |
| `CacheItemPool.CommitTwice` | src/CacheItemPool.php:117-127 | After a successful commit, a second one returns true and changes nothing. |
| `CacheItemPool.SaveFetchedHitFails` | src/CacheItemPool.php:40 | Saving an item just fetched as a hit throws, because its expiration is an integer. |
| `CacheItemPool.SaveMissThenGetItem` | src/CacheItemPool.php:94-97 | A fetched miss given a value saves without a TTL and is then fetched as a hit. |
| `CacheItemPool.HasItemIsHit` | src/CacheItemPool.php:36-40 | `hasItem` is false exactly when `getItem` returns a fresh miss. A present key that is fetched at all is fetched as a hit. |
| `CacheItemPool.ClearThenHasItem` | src/CacheItemPool.php:62-65 | After `clear`, `hasItem` is false for every key and the deferred items survive. |
| `CacheItemPool.DeleteItemThenHasItem` | src/CacheItemPool.php:70-73 | After `deleteItem(k)`, `hasItem(k)` is false and other keys are found as before. A second delete returns 0. |
| `CacheItemPool.DeleteItemsThenHasItem` | src/CacheItemPool.php:78-81 | After `deleteItems`, none of the given keys is found. |
| `CacheItemPool.DeferredScenario` | src/CacheItemPool.php:109-127 | The second `saveDeferred` of key "a" overwrites the first, and `commit` persists the second payload and empties the queue. |

## Left out

- Redis server behaviour is not modelled: connections, expiry of entries as time passes,
  and the real replies of `flushdb`, `dbsize`, `ttl` and `del`. The store is a map,
  writes and deletes always take effect, and the TTL and SET reply come from oracles.
- `RedisCacheItemPool.DeleteItem`: always returns true. `del` always removes the key,
  so the model cannot show a failed delete.
- `RedisCacheItemPool.Clear`: always returns true, for the same reason.
- `CacheItemPool.Clear`: `flushdb` actually returns a status reply object; the model
  returns true.
- `CacheItemPool.DeleteItems`: an empty key list removes nothing and returns 0. What the
  server replies to a DEL with no keys is not modelled.
- `CacheItemPool.HasItem`, `CacheItemPool.DeleteItem` and `CacheItemPool.DeleteItems`:
  these take string keys. The code passes any value (any list, for `deleteItems`) to
  the client unchecked, and the client's handling of non-strings is not modelled.
- `CacheItem.ExpiresAfter`: takes an integer only. How `%d` coerces other PHP values is
  not modelled.
- `RedisCacheItem.ExpiresAfter`: Dafny's `int` is unbounded, while PHP's integers are
  64-bit and a `\DateTime` covers a bounded range. So `now + n·86400` is promised for
  every integer n. An argument whose instant lies outside that range is not modelled;
  an example is a huge Redis TTL read as days.
- `CacheItem.ExpiresAfter`: for the same reason, `now + t` is promised for every integer
  t. An integer that wraps, or an instant outside the `\DateTime` range, is not modelled.
- Calendar arithmetic of `\DateTime::modify` and `add` is not modelled: a day is
  86400 s, and there is no DST or month length.
- Object identity and aliasing are not modelled:
  - the fluent setters return the same object in PHP;
  - queued items are shared references, so a caller's later mutation would change
    what `commit` saves.
  
  The model uses values.
- Payloads are stored as given. The client's conversion of payloads to strings is not
  modelled. The older pool's `getItem` passes the stored payload to the item's `string`
  parameter. So a payload that coercion refuses, such as null or a date, gives a
  `TypeError` there. The real client would have returned the string it had stored.
- `Php.StringArgument`: refuses every value `Other` stands for. PHP would convert a
  float, or an object with `__toString`, but the model does not carry their contents.
- `RedisCacheItemPool.Commit`: the SET-reply oracle is a function of key and value
  only. A server whose reply to the same write changes over time is modelled only
  through `CommitTwice`'s two independent oracles.
- The older pool's `RuntimeException` for an item of another class is not modelled:
  only one item type exists here.
- The older pool never initialises `$deferred`. It is modelled as an empty queue.
- The functional and integration tests need a live Redis and are not modelled. Neither
  is the bootstrap script `index.php`.
- The `CacheException` base class is not part of this model; only the message string
  is modelled.

=== FILE: cache_item.dfy ===
/** `CacheRedis\CacheItem` of the older implementation under src/: a plain
    holder whose setters store their arguments unchecked. Its setters return
    nothing in PHP; here each returns the updated item. */
module CacheItem {

  import opened Results
  import opened Php
  import RedisCacheItem

  /** `expiresAt` is whatever was last stored: a `\DateTime`, a raw integer
      TTL from the pool, `null`, or any other value a caller passed. */
  datatype Item = Item(key: string, value: Mixed, isHit: bool, expiresAt: Mixed)

  /** `new CacheItem($key, $value, $isHit, $expiresAt)` once `$value` has
      been passed to its `string` parameter. */
  function New(key: string, value: string, isHit: bool, expiresAt: Mixed): (item: Item)
    ensures item.key == key && item.value == Str(value)
    ensures item.isHit == isHit && item.expiresAt == expiresAt
  {
    Item(key, Str(value), isHit, expiresAt)
  }

  /** `new CacheItem($key)`: the defaults are an empty string payload, a miss
      and no expiration. */
  function NewMiss(key: string): (item: Item)
    ensures item.key == key && item.value == Str("") && !item.isHit
    ensures item.expiresAt == Null
  {
    New(key, "", false, Null)
  }

  /** `new CacheItem($key, $value, $isHit, $expiresAt)` called with any PHP
      value: the files under src/ do not declare `strict_types`, so `$value`
      is coerced to a string, and a value the coercion refuses throws a
      `TypeError` (`None`). The payload is always a string afterwards. */
  function Construct(key: string, value: Mixed, isHit: bool, expiresAt: Mixed): (r: Option<Item>)
    ensures r.Some? <==> value.Str? || value.Int? || value.Bool?
    ensures r.Some? ==> r.value.key == key && r.value.isHit == isHit && r.value.expiresAt == expiresAt
    ensures r.Some? ==> r.value.value.Str?
    ensures value.Str? ==> r == Some(New(key, value.s, isHit, expiresAt))
    ensures value.Int? ==> Canonical(r.value.value.s) && ParseDecimal(r.value.value.s) == value.i
    ensures value.Bool? ==> r == Some(New(key, if value.b then "1" else "", isHit, expiresAt))
  {
    match StringArgument(value)
    case None => None
    case Some(s) => Some(New(key, s, isHit, expiresAt))
  }

  /** The integer 5 is stored as the string "5", and `true` as "1". */
  lemma ConstructCoerces(key: string)
    ensures Construct(key, Int(5), false, Null) == Some(New(key, "5", false, Null))
    ensures Construct(key, Bool(true), false, Null) == Some(New(key, "1", false, Null))
    ensures Construct(key, Null, false, Null) == None
  {
  }

  /** `set($value)`. */
  function Set(item: Item, value: Mixed): (r: Item)
    ensures r.value == value
    ensures r.key == item.key && r.isHit == item.isHit && r.expiresAt == item.expiresAt
  {
    item.(value := value)
  }

  /** `expiresAt($expiration)`: stored verbatim, whatever its type. */
  function ExpiresAt(item: Item, expiration: Mixed): (r: Item)
    ensures r.expiresAt == expiration
    ensures r.key == item.key && r.value == item.value && r.isHit == item.isHit
  {
    item.(expiresAt := expiration)
  }

  /** `expiresAfter($time)` at instant `now`: `new \DateTime('+N seconds')`.
      Only integer arguments are modelled. */
  function ExpiresAfter(item: Item, time: int, now: int): (r: Item)
    ensures r.expiresAt == Instant(now + time)
    ensures r.key == item.key && r.value == item.value && r.isHit == item.isHit
  {
    item.(expiresAt := Instant(now + time))
  }

  /** This implementation reads an integer as seconds, php-redis-cache as
      days: the two agree only on zero. */
  lemma ExpiresAfterUnitsDiffer(key: string, n: int, now: int)
    ensures ExpiresAfter(NewMiss(key), n, now).expiresAt.at
         == RedisCacheItem.ExpiresAfter(RedisCacheItem.CreateEmpty(key), Int(n), now).value.expiration.value
       <==> n == 0
  {
  }

  /** A public mutator call on this implementation's item and its argument;
      `expiresAfter` takes an integer here. */
  datatype Call = SetCall(value: Mixed) | ExpiresAtCall(expiration: Mixed) | ExpiresAfterCall(time: int)

  /** One call on this implementation's item at `now`; its setters never throw. */
  function Step(item: Item, call: Call, now: int): Item
  {
    match call
    case SetCall(v) => Set(item, v)
    case ExpiresAtCall(e) => ExpiresAt(item, e)
    case ExpiresAfterCall(t) => ExpiresAfter(item, t, now)
  }

  /** Calls on this implementation's item, one after another, all at `now`. */
  function Run(item: Item, calls: seq<Call>, now: int): Item
    decreases |calls|
  {
    if |calls| == 0 then item else Run(Step(item, calls[0], now), calls[1..], now)
  }

  /** No sequence of calls changes the key or the hit flag. */
  lemma {:induction false} RunKeepsIdentity(item: Item, calls: seq<Call>, now: int)
    ensures Run(item, calls, now).key == item.key
    ensures Run(item, calls, now).isHit == item.isHit
    decreases |calls|
  {
    if |calls| > 0 {
      RunKeepsIdentity(Step(item, calls[0], now), calls[1..], now);
    }
  }
}

=== FILE: cache_item_pool.dfy ===
/** `CacheRedis\CacheItemPool` of the older implementation under src/: a pool
    over a Redis client whose deferred writes overwrite each other and whose
    commit drains the queue. The client is replaced by the map it holds and
    a `ttl(key)` oracle for the server's remaining time-to-live. */
module CacheItemPool {

  import opened Results
  import opened Php
  import opened CacheItem

  /** A Redis entry: the payload and the TTL argument it was written with. */
  datatype Entry = Entry(value: Mixed, ttl: Option<int>)

  /** The Redis database and the deferred items (PHP array keyed by item key,
      in insertion order; never initialised by the constructor, read here as
      empty). */
  datatype Pool = Pool(store: map<string, Entry>, deferred: seq<Item>)

  /** What this implementation throws: its own `InvalidArgumentException("")`
      for a bad key, PHP's `TypeError` when a payload cannot be passed to
      the item's `string` parameter, and PHP's `Error` when `getTimestamp()`
      is called on an expiration that is not a date. */
  datatype Failure =
    | InvalidArgument(message: string)
    | TypeError(typeName: string)
    | NotADate(typeName: string)

  /** `new CacheItemPool($client)`. */
  function NewPool(store: map<string, Entry>): (p: Pool)
    ensures p.store == store && p.deferred == []
  {
    Pool(store, [])
  }

  /** `getItem($key)`. A hit passes the stored payload to the item's
      `string` parameter and keeps the server's raw TTL integer as its
      expiration. */
  function GetItem(p: Pool, key: Mixed, ttl: string -> int): (r: Result<Item, Failure>)
    ensures !key.Str? ==> r == Err(InvalidArgument(""))
    ensures key.Str? && key.s !in p.store ==> r == Ok(NewMiss(key.s))
    ensures key.Str? && key.s in p.store ==>
      && (r.Ok? <==> StringArgument(p.store[key.s].value).Some?)
      && (r.Ok? ==> r.value.key == key.s && r.value.isHit && r.value.expiresAt == Int(ttl(key.s)))
      && (p.store[key.s].value.Str? ==> r.Ok? && r.value.value == p.store[key.s].value)
      && (r.Err? ==> r.error == TypeError(TypeName(p.store[key.s].value)))
  {
    if !key.Str? then Err(InvalidArgument(""))
    else if key.s !in p.store then Ok(NewMiss(key.s))
    else
      var payload := p.store[key.s].value;
      match Construct(key.s, payload, true, Int(ttl(key.s)))
      case None => Err(TypeError(TypeName(payload)))
      case Some(item) => Ok(item)
  }

  /** `getItems($keys)`: `getItem` of every key in order; the first key
      whose `getItem` throws aborts the call with that exception. */
  function GetItems(p: Pool, keys: seq<Mixed>, ttl: string -> int): (r: Result<seq<Item>, Failure>)
    ensures r.Ok? <==> forall i :: 0 <= i < |keys| ==> GetItem(p, keys[i], ttl).Ok?
    ensures FirstNonString(keys) < |keys| ==> r.Err?
    ensures r.Ok? ==> |r.value| == |keys|
    ensures r.Ok? ==> forall i :: 0 <= i < |keys| ==> Ok(r.value[i]) == GetItem(p, keys[i], ttl)
    ensures r.Err? ==> exists i :: 0 <= i < |keys| && GetItem(p, keys[i], ttl) == Err(r.error)
                                   && forall j :: 0 <= j < i ==> GetItem(p, keys[j], ttl).Ok?
    decreases |keys|
  {
    if |keys| == 0 then Ok([])
    else match GetItem(p, keys[0], ttl)
      case Err(e) => Err(e)
      case Ok(item) =>
        match GetItems(p, keys[1..], ttl)
        case Err(e) => FirstFailureShifts(p, keys, ttl, e); Err(e)
        case Ok(rest) => Ok([item] + rest)
  }

  /** A first failing key of the tail, behind a key that does not fail, is
      a first failing key of the whole sequence. */
  lemma FirstFailureShifts(p: Pool, keys: seq<Mixed>, ttl: string -> int, e: Failure)
    requires |keys| > 0 && GetItem(p, keys[0], ttl).Ok?
    requires exists i :: 0 <= i < |keys| - 1 && GetItem(p, keys[1..][i], ttl) == Err(e)
                         && forall j :: 0 <= j < i ==> GetItem(p, keys[1..][j], ttl).Ok?
    ensures exists i :: 0 <= i < |keys| && GetItem(p, keys[i], ttl) == Err(e)
                        && forall j :: 0 <= j < i ==> GetItem(p, keys[j], ttl).Ok?
  {
    var i :| 0 <= i < |keys| - 1 && GetItem(p, keys[1..][i], ttl) == Err(e)
              && forall j :: 0 <= j < i ==> GetItem(p, keys[1..][j], ttl).Ok?;
    assert keys[i + 1] == keys[1..][i];
    forall j | 0 <= j < i + 1 ensures GetItem(p, keys[j], ttl).Ok? {
      if j > 0 { assert keys[j] == keys[1..][j - 1]; }
    }
  }

  /** `hasItem($key)`: the store's `exists`, with no key check. */
  function HasItem(p: Pool, key: string): (r: bool)
    ensures r <==> key in p.store
  {
    key in p.store
  }

  /** `clear()`: `flushdb`; its status reply is read as true. */
  function Clear(p: Pool): (out: (bool, Pool))
    ensures out.0 && out.1.store == map[] && out.1.deferred == p.deferred
  {
    (true, p.(store := map[]))
  }

  /** The keys named in `keys`. */
  function KeySet(keys: seq<string>): set<string>
  {
    set i | 0 <= i < |keys| :: keys[i]
  }

  /** `deleteItems($keys)`: one `del` of all keys; the reply is the number of
      keys that existed. */
  function DeleteItems(p: Pool, keys: seq<string>): (out: (int, Pool))
    ensures out.1.store.Keys == p.store.Keys - KeySet(keys)
    ensures forall k :: k in out.1.store ==> out.1.store[k] == p.store[k]
    ensures out.1.deferred == p.deferred
    ensures out.0 == |KeySet(keys) * p.store.Keys|
  {
    (|KeySet(keys) * p.store.Keys|, p.(store := p.store - KeySet(keys)))
  }

  /** `deleteItem($key)`: `del([$key])`, returning the count (1 or 0). */
  function DeleteItem(p: Pool, key: string): (out: (int, Pool))
    ensures out.1.store == p.store - {key} && out.1.deferred == p.deferred
    ensures out.0 == if key in p.store then 1 else 0
  {
    assert key in KeySet([key]) by { assert [key][0] == key; }
    assert KeySet([key]) == {key};
    assert key in p.store ==> {key} * p.store.Keys == {key};
    assert key !in p.store ==> {key} * p.store.Keys == {};
    DeleteItems(p, [key])
  }

  /** Whether `save` can read a timestamp off the item's expiration. */
  predicate Dated(item: Item)
  {
    item.expiresAt.Null? || item.expiresAt.Instant?
  }

  /** The TTL `save` passes to SET: none without an expiration, otherwise
      `now - expiration`. */
  function SaveTtl(item: Item, now: int): (ttl: Option<int>)
    requires Dated(item)
    ensures item.expiresAt.Null? <==> ttl.None?
    ensures item.expiresAt.Instant? ==> ttl.value + item.expiresAt.at == now
  {
    if item.expiresAt.Null? then None else Some(now - item.expiresAt.at)
  }

  /** The TTL is positive exactly when the expiration lies in the past. */
  lemma SaveTtlSign(item: Item, now: int)
    requires item.expiresAt.Instant?
    ensures SaveTtl(item, now).value > 0 <==> item.expiresAt.at < now
  {
  }

  /** `save($item)` at instant `now`: SET with or without a TTL, always true.
      An expiration that is not a date makes `getTimestamp()` fail before the
      write. */
  function Save(p: Pool, item: Item, now: int): (out: (Result<bool, Failure>, Pool))
    ensures out.0.Ok? <==> Dated(item)
    ensures out.0.Ok? ==> out.0.value
    ensures out.0.Err? ==> out.0.error == NotADate(TypeName(item.expiresAt)) && out.1 == p
    ensures out.0.Ok? ==> out.1.store == p.store[item.key := Entry(item.value, SaveTtl(item, now))]
    ensures out.1.deferred == p.deferred
  {
    if !Dated(item) then (Err(NotADate(TypeName(item.expiresAt))), p)
    else (Ok(true), p.(store := p.store[item.key := Entry(item.value, SaveTtl(item, now))]))
  }

  /** The deferred item stored under `key`, if any; the same lookup as
      php-redis-cache's, over this implementation's items. */
  function Lookup(deferred: seq<Item>, key: string): (r: Option<Item>)
    ensures r.Some? ==> r.value.key == key && r.value in deferred
    decreases |deferred|
  {
    if |deferred| == 0 then None
    else if deferred[0].key == key then Some(deferred[0])
    else Lookup(deferred[1..], key)
  }

  /** Looking a key up in a queue with a known head. */
  lemma LookupCons(head: Item, tail: seq<Item>)
    ensures forall k :: Lookup([head] + tail, k) == if head.key == k then Some(head) else Lookup(tail, k)
  {
    assert ([head] + tail)[1..] == tail;
  }

  /** The key names present in a queue of this implementation's items. */
  function QueuedKeys(deferred: seq<Item>): set<string>
  {
    set i | 0 <= i < |deferred| :: deferred[i].key
  }

  /** No key is queued twice (the deferred array of this implementation). */
  predicate Distinct(deferred: seq<Item>)
  {
    forall i, j :: 0 <= i < j < |deferred| ==> deferred[i].key != deferred[j].key
  }

  /** `$deferred[$key] = $item`: overwrite in place, or append a new key. */
  function Put(deferred: seq<Item>, item: Item): (r: seq<Item>)
    ensures Lookup(r, item.key) == Some(item)
    ensures forall k :: k != item.key ==> Lookup(r, k) == Lookup(deferred, k)
    decreases |deferred|
  {
    if |deferred| == 0 then [item]
    else if deferred[0].key == item.key then [item] + deferred[1..]
    else
      var r := [deferred[0]] + Put(deferred[1..], item);
      assert r[1..] == Put(deferred[1..], item);
      r
  }

  /** A new key is appended at the end of the queue. */
  lemma {:induction false} PutAppends(deferred: seq<Item>, item: Item)
    requires item.key !in QueuedKeys(deferred)
    ensures Put(deferred, item) == deferred + [item]
    decreases |deferred|
  {
    if |deferred| > 0 {
      var head, tail := deferred[0], deferred[1..];
      assert deferred == [head] + tail;
      QueuedKeysOfConcat([head], tail);
      QueuedKeysOfSingleton(head);
      PutAppends(tail, item);
    }
  }

  /** In a queue with distinct keys, an already queued key is replaced in
      its place. */
  lemma {:induction false} PutInPlace(deferred: seq<Item>, item: Item, i: int)
    requires Distinct(deferred) && 0 <= i < |deferred| && deferred[i].key == item.key
    ensures Put(deferred, item) == deferred[i := item]
    decreases i
  {
    if i > 0 {
      var head, tail := deferred[0], deferred[1..];
      assert head.key != deferred[i].key;
      DistinctHead(deferred);
      assert tail[i - 1] == deferred[i];
      PutInPlace(tail, item, i - 1);
      assert Put(deferred, item) == [head] + Put(tail, item);
      assert deferred[i := item] == [head] + tail[i - 1 := item];
    }
  }

  /** The first key of a queue with distinct keys does not recur, and the
      rest of the queue has distinct keys too. */
  lemma DistinctHead(d: seq<Item>)
    requires Distinct(d) && |d| > 0
    ensures d[0].key !in QueuedKeys(d[1..])
    ensures Distinct(d[1..])
  {
    forall k | k in QueuedKeys(d[1..]) ensures k != d[0].key {
      var j :| 0 <= j < |d[1..]| && d[1..][j].key == k;
      assert d[1..][j] == d[j + 1];
    }
    forall i, j | 0 <= i < j < |d[1..]| ensures d[1..][i].key != d[1..][j].key {
      assert d[1..][i] == d[i + 1] && d[1..][j] == d[j + 1];
    }
  }

  /** Where `$deferred[$key] = $item` puts the item: at the end for a new
      key, in the old item's place for a queued one. */
  lemma PutPlace(deferred: seq<Item>, item: Item)
    ensures item.key !in QueuedKeys(deferred) ==> Put(deferred, item) == deferred + [item]
    ensures forall i :: 0 <= i < |deferred| && deferred[i].key == item.key && Distinct(deferred) ==>
      Put(deferred, item) == deferred[i := item]
  {
    if item.key !in QueuedKeys(deferred) { PutAppends(deferred, item); }
    forall i | 0 <= i < |deferred| && deferred[i].key == item.key && Distinct(deferred)
      ensures Put(deferred, item) == deferred[i := item]
    {
      PutInPlace(deferred, item, i);
    }
  }

  /** Overwriting adds the item's key to the queue's keys: an already queued
      key keeps its place, a new key is appended. */
  lemma {:induction false} PutKeys(deferred: seq<Item>, item: Item)
    ensures QueuedKeys(Put(deferred, item)) == QueuedKeys(deferred) + {item.key}
    ensures |Put(deferred, item)| == if item.key in QueuedKeys(deferred) then |deferred| else |deferred| + 1
    decreases |deferred|
  {
    if |deferred| == 0 {
      QueuedKeysOfSingleton(item);
    } else {
      var head, tail := deferred[0], deferred[1..];
      assert deferred == [head] + tail;
      QueuedKeysOfConcat([head], tail);
      QueuedKeysOfSingleton(head);
      if head.key == item.key {
        QueuedKeysOfConcat([item], tail);
        QueuedKeysOfSingleton(item);
      } else {
        PutKeys(tail, item);
        QueuedKeysOfConcat([head], Put(tail, item));
      }
    }
  }

  /** A queue is distinct exactly when its tail is and its head key does not
      recur. */
  lemma DistinctCons(head: Item, tail: seq<Item>)
    ensures Distinct([head] + tail) <==> Distinct(tail) && head.key !in QueuedKeys(tail)
  {
    var q := [head] + tail;
    assert q[0] == head;
    assert forall i :: 0 <= i < |tail| ==> q[i + 1] == tail[i];
    if Distinct(q) {
      forall k | k in QueuedKeys(tail) ensures k != head.key {
        var i :| 0 <= i < |tail| && tail[i].key == k;
        assert q[i + 1] == tail[i];
      }
    }
  }

  /** Overwriting keeps the queue's keys distinct. */
  lemma {:induction false} PutDistinct(deferred: seq<Item>, item: Item)
    ensures Distinct(deferred) ==> Distinct(Put(deferred, item))
    decreases |deferred|
  {
    if |deferred| > 0 && Distinct(deferred) {
      var head, tail := deferred[0], deferred[1..];
      assert deferred == [head] + tail;
      DistinctCons(head, tail);
      if head.key == item.key {
        DistinctCons(item, tail);
      } else {
        PutDistinct(tail, item);
        PutKeys(tail, item);
        DistinctCons(head, Put(tail, item));
      }
    }
  }

  lemma QueuedKeysOfSingleton(item: Item)
    ensures QueuedKeys([item]) == {item.key}
  {
    assert [item][0] == item;
  }

  /** A non-empty queue's first key is among its keys, so a queue with no
      keys is empty. */
  lemma FirstKeyQueued(deferred: seq<Item>)
    ensures |deferred| > 0 ==> deferred[0].key in QueuedKeys(deferred)
  {
  }

  /** `saveDeferred($item)`: queue the item, replacing one with the same key. */
  function SaveDeferred(p: Pool, item: Item): (r: Pool)
    ensures r.store == p.store
    ensures Lookup(r.deferred, item.key) == Some(item)
    ensures forall k :: k != item.key ==> Lookup(r.deferred, k) == Lookup(p.deferred, k)
    ensures QueuedKeys(r.deferred) == QueuedKeys(p.deferred) + {item.key}
    ensures Distinct(p.deferred) ==> Distinct(r.deferred)
    ensures item.key !in QueuedKeys(p.deferred) ==> r.deferred == p.deferred + [item]
    ensures forall i :: 0 <= i < |p.deferred| && p.deferred[i].key == item.key && Distinct(p.deferred) ==>
      r.deferred == p.deferred[i := item]
  {
    PutKeys(p.deferred, item);
    PutDistinct(p.deferred, item);
    PutPlace(p.deferred, item);
    p.(deferred := Put(p.deferred, item))
  }

  /** The queue with every item under `key` filtered out. */
  function Without(deferred: seq<Item>, key: string): seq<Item>
    decreases |deferred|
  {
    if |deferred| == 0 then []
    else if deferred[0].key == key then Without(deferred[1..], key)
    else [deferred[0]] + Without(deferred[1..], key)
  }

  lemma {:induction false} WithoutKeys(deferred: seq<Item>, key: string)
    ensures QueuedKeys(Without(deferred, key)) == QueuedKeys(deferred) - {key}
    ensures forall i :: 0 <= i < |Without(deferred, key)| ==> Without(deferred, key)[i] in deferred
    decreases |deferred|
  {
    if |deferred| > 0 {
      var head, tail := deferred[0], deferred[1..];
      var rest := Without(tail, key);
      WithoutKeys(tail, key);
      assert deferred == [head] + tail;
      QueuedKeysOfConcat([head], tail);
      QueuedKeysOfSingleton(head);
      if head.key != key {
        QueuedKeysOfConcat([head], rest);
        assert forall i :: 0 <= i < |rest| ==> ([head] + rest)[i + 1] == rest[i];
      }
    }
  }

  lemma {:induction false} WithoutLookup(deferred: seq<Item>, key: string)
    ensures Lookup(Without(deferred, key), key) == None
    ensures forall k :: k != key ==> Lookup(Without(deferred, key), k) == Lookup(deferred, k)
    decreases |deferred|
  {
    if |deferred| > 0 {
      var head, tail := deferred[0], deferred[1..];
      WithoutLookup(tail, key);
      if head.key != key {
        LookupCons(head, Without(tail, key));
      }
    }
  }

  lemma {:induction false} WithoutDistinct(deferred: seq<Item>, key: string)
    ensures Distinct(deferred) ==> Distinct(Without(deferred, key))
    decreases |deferred|
  {
    if |deferred| > 0 && Distinct(deferred) {
      var head, tail := deferred[0], deferred[1..];
      DistinctHead(deferred);
      WithoutDistinct(tail, key);
      if head.key != key {
        WithoutKeys(tail, key);
        DistinctCons(head, Without(tail, key));
      }
    }
  }

  /** `unset($deferred[$key])`: only that key's item leaves the queue. */
  function Unset(deferred: seq<Item>, key: string): (r: seq<Item>)
    ensures QueuedKeys(r) == QueuedKeys(deferred) - {key}
    ensures Lookup(r, key) == None
    ensures forall k :: k != key ==> Lookup(r, k) == Lookup(deferred, k)
    ensures forall i :: 0 <= i < |r| ==> r[i] in deferred
    ensures Distinct(deferred) ==> Distinct(r)
  {
    WithoutKeys(deferred, key);
    WithoutLookup(deferred, key);
    WithoutDistinct(deferred, key);
    Without(deferred, key)
  }

  /** Unsetting a key that is not queued changes nothing. */
  lemma {:induction false} UnsetAbsent(deferred: seq<Item>, key: string)
    requires key !in QueuedKeys(deferred)
    ensures Unset(deferred, key) == deferred
    decreases |deferred|
  {
    WithoutAbsent(deferred, key);
  }

  lemma {:induction false} WithoutAbsent(deferred: seq<Item>, key: string)
    requires key !in QueuedKeys(deferred)
    ensures Without(deferred, key) == deferred
    decreases |deferred|
  {
    if |deferred| > 0 {
      var head, tail := deferred[0], deferred[1..];
      assert deferred == [head] + tail;
      QueuedKeysOfConcat([head], tail);
      QueuedKeysOfSingleton(head);
      WithoutAbsent(tail, key);
    }
  }

  /** In a queue with distinct keys, unsetting the key of item i removes
      exactly that item and keeps the others in order. */
  lemma UnsetOrder(deferred: seq<Item>, i: int)
    requires Distinct(deferred) && 0 <= i < |deferred|
    ensures Unset(deferred, deferred[i].key) == deferred[..i] + deferred[i + 1..]
  {
    WithoutOrder(deferred, i);
  }

  lemma {:induction false} WithoutOrder(deferred: seq<Item>, i: int)
    requires Distinct(deferred) && 0 <= i < |deferred|
    ensures Without(deferred, deferred[i].key) == deferred[..i] + deferred[i + 1..]
    decreases i
  {
    var key := deferred[i].key;
    var head, tail := deferred[0], deferred[1..];
    DistinctHead(deferred);
    if i == 0 {
      WithoutAbsent(tail, key);
      assert deferred[..0] + deferred[1..] == tail;
    } else {
      assert head.key != deferred[i].key;
      assert tail[i - 1] == deferred[i];
      WithoutOrder(tail, i - 1);
      assert deferred[..i] + deferred[i + 1..] == [head] + (tail[..i - 1] + tail[i..]);
    }
  }

  /** Index of the first item `save` cannot date, or `|items|`. */
  function FirstUndated(items: seq<Item>): (f: nat)
    ensures f <= |items|
    ensures forall j :: 0 <= j < f ==> Dated(items[j])
    ensures f < |items| ==> !Dated(items[f])
  {
    if |items| == 0 then 0
    else if !Dated(items[0]) then 0
    else 1 + FirstUndated(items[1..])
  }

  /** The `foreach` of `commit` over a snapshot of the queue: save each item,
      then unset its key. A failing save aborts, leaving that item and the
      rest queued. */
  function Drain(p: Pool, items: seq<Item>, now: int): (out: (Result<bool, Failure>, Pool))
    ensures out.0.Ok? <==> FirstUndated(items) == |items|
    ensures out.0.Ok? ==> out.0.value
    ensures out.0.Err? ==> out.0.error == NotADate(TypeName(items[FirstUndated(items)].expiresAt))
    decreases |items|
  {
    if |items| == 0 then (Ok(true), p)
    else
      var item := items[0];
      var (saved, p1) := Save(p, item, now);
      match saved
      case Err(e) => (Err(e), p1)
      case Ok(_) =>
        var p2 := p1.(deferred := Unset(p1.deferred, item.key));
        Drain(p2, items[1..], now)
  }

  lemma QueuedKeysOfConcat(a: seq<Item>, b: seq<Item>)
    ensures QueuedKeys(a + b) == QueuedKeys(a) + QueuedKeys(b)
  {
    forall k | k in QueuedKeys(a + b) ensures k in QueuedKeys(a) + QueuedKeys(b) {
      var i :| 0 <= i < |a + b| && (a + b)[i].key == k;
      if i >= |a| { assert b[i - |a|] == (a + b)[i]; }
    }
    forall k | k in QueuedKeys(a) + QueuedKeys(b) ensures k in QueuedKeys(a + b) {
      if k in QueuedKeys(a) {
        var i :| 0 <= i < |a| && a[i].key == k;
        assert (a + b)[i] == a[i];
      } else {
        var i :| 0 <= i < |b| && b[i].key == k;
        assert (a + b)[|a| + i] == b[i];
      }
    }
  }

  /** The queue after a drain has lost exactly the keys of the items it got
      through. */
  lemma {:induction false} DrainQueue(p: Pool, items: seq<Item>, now: int)
    ensures QueuedKeys(Drain(p, items, now).1.deferred)
         == QueuedKeys(p.deferred) - QueuedKeys(items[..FirstUndated(items)])
    decreases |items|
  {
    var f := FirstUndated(items);
    if |items| > 0 && Dated(items[0]) {
      var item := items[0];
      var p1 := Save(p, item, now).1;
      var p2 := p1.(deferred := Unset(p1.deferred, item.key));
      DrainUnfold(p, items, now);
      DrainQueue(p2, items[1..], now);
      assert items[..f] == [item] + items[1..][..f - 1];
      QueuedKeysOfConcat([item], items[1..][..f - 1]);
      QueuedKeysOfSingleton(item);
    } else {
      assert items[..f] == [];
    }
  }

  /** A drain keeps the queue's keys distinct. */
  lemma {:induction false} DrainDistinct(p: Pool, items: seq<Item>, now: int)
    ensures Distinct(p.deferred) ==> Distinct(Drain(p, items, now).1.deferred)
    decreases |items|
  {
    if |items| > 0 && Dated(items[0]) {
      var p1 := Save(p, items[0], now).1;
      DrainUnfold(p, items, now);
      DrainDistinct(p1.(deferred := Unset(p1.deferred, items[0].key)), items[1..], now);
    }
  }

  /** Every item a drain did not get through stays queued as it was. */
  lemma {:induction false} DrainSurvivors(p: Pool, items: seq<Item>, now: int)
    ensures forall k :: k !in QueuedKeys(items[..FirstUndated(items)]) ==>
      Lookup(Drain(p, items, now).1.deferred, k) == Lookup(p.deferred, k)
    decreases |items|
  {
    var f := FirstUndated(items);
    if |items| > 0 && Dated(items[0]) {
      var item := items[0];
      var p1 := Save(p, item, now).1;
      var p2 := p1.(deferred := Unset(p1.deferred, item.key));
      DrainUnfold(p, items, now);
      DrainSurvivors(p2, items[1..], now);
      assert items[..f] == [item] + items[1..][..f - 1];
      QueuedKeysOfConcat([item], items[1..][..f - 1]);
      QueuedKeysOfSingleton(item);
    }
  }

  /** Draining a queue with distinct keys over its own snapshot leaves
      exactly the items from the first undatable one on, in order. */
  lemma {:induction false} DrainSuffixOf(p: Pool, items: seq<Item>, now: int)
    requires p.deferred == items && Distinct(items)
    ensures Drain(p, items, now).1.deferred == items[FirstUndated(items)..]
    decreases |items|
  {
    if |items| > 0 && Dated(items[0]) {
      var tail := items[1..];
      var p1 := Save(p, items[0], now).1;
      assert p1.deferred == items;
      UnsetOrder(items, 0);
      assert items[..0] + items[1..] == tail;
      var p2 := p1.(deferred := tail);
      assert p1.(deferred := Unset(p1.deferred, items[0].key)) == p2;
      DrainUnfold(p, items, now);
      DistinctHead(items);
      DrainSuffixOf(p2, tail, now);
      assert Drain(p, items, now) == Drain(p2, tail, now);
      assert FirstUndated(items) == 1 + FirstUndated(tail);
      SuffixOfTail(items, FirstUndated(tail));
    } else {
      DrainStops(p, items, now);
    }
  }

  lemma SuffixOfTail(items: seq<Item>, f: nat)
    requires f < |items|
    ensures items[1..][f..] == items[1 + f..]
  {
  }

  /** A drain that cannot date its first item, or has none, leaves the pool
      as it was. */
  lemma DrainStops(p: Pool, items: seq<Item>, now: int)
    requires |items| == 0 || !Dated(items[0])
    ensures Drain(p, items, now).1 == p
    ensures FirstUndated(items) == 0
  {
  }

  lemma DrainSuffix(p: Pool, now: int)
    ensures Distinct(p.deferred) ==> Drain(p, p.deferred, now).1.deferred == p.deferred[FirstUndated(p.deferred)..]
  {
    if Distinct(p.deferred) {
      DrainSuffixOf(p, p.deferred, now);
    }
  }

  /** `commit()` at instant `now`: save and unset every deferred item; true
      unless a save throws. */
  function Commit(p: Pool, now: int): (out: (Result<bool, Failure>, Pool))
    ensures out.0.Ok? <==> forall i :: 0 <= i < |p.deferred| ==> Dated(p.deferred[i])
    ensures out.0.Ok? ==> out.0.value && out.1.deferred == []
    ensures out.0.Err? ==> out.0.error == NotADate(TypeName(p.deferred[FirstUndated(p.deferred)].expiresAt))
    ensures out.0.Err? ==> QueuedKeys(out.1.deferred)
                           == QueuedKeys(p.deferred) - QueuedKeys(p.deferred[..FirstUndated(p.deferred)])
    ensures out.0.Err? ==> forall k :: k !in QueuedKeys(p.deferred[..FirstUndated(p.deferred)]) ==>
                             Lookup(out.1.deferred, k) == Lookup(p.deferred, k)
    ensures Distinct(p.deferred) ==> Distinct(out.1.deferred)
    ensures Distinct(p.deferred) ==> out.1.deferred == p.deferred[FirstUndated(p.deferred)..]
  {
    var out := Drain(p, p.deferred, now);
    DrainQueue(p, p.deferred, now);
    DrainDistinct(p, p.deferred, now);
    DrainSurvivors(p, p.deferred, now);
    DrainSuffix(p, now);
    assert out.0.Ok? ==> p.deferred[..FirstUndated(p.deferred)] == p.deferred;
    FirstKeyQueued(out.1.deferred);
    out
  }

  /** A failed commit leaves a queue that a later commit can still rely on:
      its keys stay distinct, and the failing item is still queued. */
  lemma FailedCommitKeepsQueue(p: Pool, now: int)
    requires Distinct(p.deferred)
    requires Commit(p, now).0.Err?
    ensures Distinct(Commit(p, now).1.deferred)
    ensures var failing := p.deferred[FirstUndated(p.deferred)];
      Lookup(Commit(p, now).1.deferred, failing.key) == Some(failing)
  {
    var d := p.deferred;
    var f := FirstUndated(d);
    forall k | k in QueuedKeys(d[..f]) ensures k != d[f].key {
      var i :| 0 <= i < f && d[..f][i].key == k;
      assert d[..f][i] == d[i];
    }
    LookupDistinct(d, f);
  }

  /** In a queue with distinct keys, looking up an item's key finds it. */
  lemma {:induction false} LookupDistinct(d: seq<Item>, i: int)
    requires Distinct(d) && 0 <= i < |d|
    ensures Lookup(d, d[i].key) == Some(d[i])
    decreases i
  {
    if i > 0 {
      assert d[0].key != d[i].key;
      assert d[1..][i - 1] == d[i];
      LookupDistinct(d[1..], i - 1);
    }
  }

  /** One step of a drain over a dated first item. */
  lemma DrainUnfold(p: Pool, items: seq<Item>, now: int)
    requires |items| > 0 && Dated(items[0])
    ensures var p1 := Save(p, items[0], now).1;
      Drain(p, items, now) == Drain(p1.(deferred := Unset(p1.deferred, items[0].key)), items[1..], now)
    ensures FirstUndated(items) == 1 + FirstUndated(items[1..])
  {
  }

  /** Every item a drain gets through is written with its payload and TTL. */
  lemma {:induction false} DrainWrites(p: Pool, items: seq<Item>, now: int)
    requires Distinct(items)
    ensures forall i :: 0 <= i < FirstUndated(items) ==>
      && items[i].key in Drain(p, items, now).1.store
      && Drain(p, items, now).1.store[items[i].key] == Entry(items[i].value, SaveTtl(items[i], now))
    decreases |items|
  {
    if |items| > 0 && Dated(items[0]) {
      var item, tail := items[0], items[1..];
      var p1 := Save(p, item, now).1;
      var p2 := p1.(deferred := Unset(p1.deferred, item.key));
      DrainUnfold(p, items, now);
      assert items == [item] + tail;
      DistinctCons(item, tail);
      DrainWrites(p2, tail, now);
      DrainKeeps(p2, tail, now);
      var f := FirstUndated(items);
      assert item.key !in QueuedKeys(tail[..f - 1]) by {
        forall k | k in QueuedKeys(tail[..f - 1]) ensures k in QueuedKeys(tail) {
          var i :| 0 <= i < f - 1 && tail[..f - 1][i].key == k;
          assert tail[i] == tail[..f - 1][i];
        }
      }
      forall i | 0 <= i < f
        ensures items[i].key in Drain(p, items, now).1.store
        ensures Drain(p, items, now).1.store[items[i].key] == Entry(items[i].value, SaveTtl(items[i], now))
      {
        if i > 0 {
          assert items[i] == tail[i - 1];
        }
      }
    }
  }

  /** A key no drained item carries is left as it was. */
  lemma {:induction false} DrainKeeps(p: Pool, items: seq<Item>, now: int)
    ensures forall k :: k !in QueuedKeys(items[..FirstUndated(items)]) ==>
      && (k in Drain(p, items, now).1.store <==> k in p.store)
      && (k in p.store ==> Drain(p, items, now).1.store[k] == p.store[k])
    decreases |items|
  {
    if |items| > 0 && Dated(items[0]) {
      var item, tail := items[0], items[1..];
      var p1 := Save(p, item, now).1;
      var p2 := p1.(deferred := Unset(p1.deferred, item.key));
      DrainUnfold(p, items, now);
      DrainKeeps(p2, tail, now);
      var f := FirstUndated(items);
      assert items[..f] == [item] + tail[..f - 1];
      QueuedKeysOfConcat([item], tail[..f - 1]);
      QueuedKeysOfSingleton(item);
    }
  }

  /** On a queue with distinct keys, a successful commit writes every
      deferred item and leaves every other key as it was. */
  lemma CommitStore(p: Pool, now: int)
    requires Distinct(p.deferred)
    requires Commit(p, now).0.Ok?
    ensures forall i :: 0 <= i < |p.deferred| ==>
      && p.deferred[i].key in Commit(p, now).1.store
      && Commit(p, now).1.store[p.deferred[i].key] == Entry(p.deferred[i].value, SaveTtl(p.deferred[i], now))
    ensures forall k :: k in p.store && k !in QueuedKeys(p.deferred) ==>
      k in Commit(p, now).1.store && Commit(p, now).1.store[k] == p.store[k]
  {
    DrainWrites(p, p.deferred, now);
    DrainKeeps(p, p.deferred, now);
    assert p.deferred[..|p.deferred|] == p.deferred;
  }

  /** A committed queue is empty, so committing again changes nothing. */
  lemma CommitTwice(p: Pool, now: int)
    requires Commit(p, now).0.Ok?
    ensures Commit(Commit(p, now).1, now) == (Ok(true), Commit(p, now).1)
  {
  }

  /** Saving an item just fetched as a hit throws: its expiration is the raw
      TTL integer, which has no `getTimestamp()`. */
  lemma SaveFetchedHitFails(p: Pool, key: string, ttl: string -> int, now: int)
    requires key in p.store
    ensures GetItem(p, Str(key), ttl).Ok? ==>
      Save(p, GetItem(p, Str(key), ttl).value, now) == (Err(NotADate("integer")), p)
  {
  }

  /** A fetched miss saves without a TTL and is then found as a hit. */
  lemma SaveMissThenGetItem(p: Pool, key: string, value: string, ttl: string -> int, now: int)
    requires key !in p.store
    ensures var item := Set(GetItem(p, Str(key), ttl).value, Str(value));
      var p1 := Save(p, item, now).1;
      && key in p1.store && p1.store[key] == Entry(Str(value), None)
      && GetItem(p1, Str(key), ttl) == Ok(New(key, value, true, Int(ttl(key))))
  {
  }

  /** `hasItem` agrees with `getItem`: an absent key is fetched as a fresh
      miss, and a present one, when fetched at all, as a hit. */
  lemma HasItemIsHit(p: Pool, key: string, ttl: string -> int)
    ensures !HasItem(p, key) <==> GetItem(p, Str(key), ttl) == Ok(NewMiss(key))
    ensures HasItem(p, key) && GetItem(p, Str(key), ttl).Ok? ==> GetItem(p, Str(key), ttl).value.isHit
  {
  }

  /** After a clear nothing is found and the deferred items survive. */
  lemma ClearThenHasItem(p: Pool, key: string)
    ensures !HasItem(Clear(p).1, key)
    ensures Clear(p).1.deferred == p.deferred
  {
  }

  /** After a delete the key is gone, every other key is found as before,
      and a second delete reports 0. */
  lemma DeleteItemThenHasItem(p: Pool, key: string, other: string)
    requires other != key
    ensures !HasItem(DeleteItem(p, key).1, key)
    ensures HasItem(DeleteItem(p, key).1, other) == HasItem(p, other)
    ensures DeleteItem(DeleteItem(p, key).1, key).0 == 0
  {
  }

  /** After `deleteItems` none of the given keys is found. */
  lemma DeleteItemsThenHasItem(p: Pool, keys: seq<string>, i: int)
    requires 0 <= i < |keys|
    ensures !HasItem(DeleteItems(p, keys).1, keys[i])
  {
  }

  /** The deferred-write scenario: the second enqueue of key "a" replaces the
      first and commit persists the second payload. */
  lemma DeferredScenario(store: map<string, Entry>, now: int)
    ensures var p := SaveDeferred(SaveDeferred(NewPool(store), New("a", "1", true, Null)),
                                  New("a", "2", true, Null));
      && p.deferred == [New("a", "2", true, Null)]
      && Commit(p, now).0 == Ok(true)
      && "a" in Commit(p, now).1.store
      && Commit(p, now).1.store["a"] == Entry(Str("2"), None)
      && Commit(p, now).1.deferred == []
  {
    var p1 := SaveDeferred(NewPool(store), New("a", "1", true, Null));
    assert p1.deferred == [New("a", "1", true, Null)];
    var p := SaveDeferred(p1, New("a", "2", true, Null));
    assert p.deferred == [New("a", "2", true, Null)];
    CommitStore(p, now);
  }
}

=== FILE: invalid_argument.dfy ===
/** The exception php-redis-cache throws for a wrongly typed argument, and the
    fixed-format message its constructor builds with `sprintf` and `implode`. */
module InvalidArgument {

  import opened Results

  /** `new InvalidArgumentException($provided, $expected)`: the `gettype` name
      of the rejected argument and the type names that would have been accepted. */
  datatype Exception = InvalidArgumentException(provided: string, expected: seq<string>)

  /** The glue passed to `implode`. */
  const Separator: string := "\" or \""

  /** The three constant parts of the format `Invalid type "%s", expected "%s".` */
  const Opening: string := "Invalid type \""
  const Middle: string := "\", expected \""
  const Closing: string := "\"."

  /** Sum of the lengths of `pieces`. */
  function TotalLength(pieces: seq<string>): nat
  {
    if |pieces| == 0 then 0 else |pieces[0]| + TotalLength(pieces[1..])
  }

  /** PHP's `implode($glue, $pieces)` on a list of strings. */
  function Implode(glue: string, pieces: seq<string>): (r: string)
    ensures |pieces| == 0 ==> r == ""
    ensures |pieces| > 0 ==> |r| == TotalLength(pieces) + (|pieces| - 1) * |glue|
    ensures |pieces| > 0 ==> pieces[0] <= r
  {
    if |pieces| == 0 then ""
    else if |pieces| == 1 then pieces[0]
    else pieces[0] + glue + Implode(glue, pieces[1..])
  }

  /** The message handed to the parent exception's constructor. */
  function Message(e: Exception): (m: string)
    ensures Opening + e.provided + "\"" <= m
    ensures |m| >= |Closing| && m[|m| - |Closing|..] == Closing
  {
    var m := Opening + e.provided + Middle + Implode(Separator, e.expected) + Closing;
    assert m == (Opening + e.provided + "\"") + (Middle[1..] + Implode(Separator, e.expected) + Closing);
    assert m == (Opening + e.provided + Middle + Implode(Separator, e.expected)) + Closing;
    m
  }

  /** With one accepted type the expected part is that name alone. */
  lemma MessageSingleExpected(provided: string, name: string)
    ensures Message(InvalidArgumentException(provided, [name]))
         == "Invalid type \"" + provided + "\", expected \"" + name + "\"."
  {
  }

  // ---------------------------------------------------------------------
  // Reading a message back: the format is unambiguous as long as no type
  // name contains a double quote.

  predicate Unquoted(s: string)
  {
    forall i :: 0 <= i < |s| ==> s[i] != '"'
  }

  /** Index of the first double quote in `s`, or `|s|` when there is none. */
  function FirstQuote(s: string): (i: nat)
    ensures i <= |s|
    ensures forall j :: 0 <= j < i ==> s[j] != '"'
    ensures i < |s| ==> s[i] == '"'
  {
    if |s| == 0 then 0
    else if s[0] == '"' then 0
    else 1 + FirstQuote(s[1..])
  }

  lemma FirstQuoteOfConcat(a: string, b: string)
    requires Unquoted(a)
    requires |b| > 0 && b[0] == '"'
    ensures FirstQuote(a + b) == |a|
  {
    var s := a + b;
    assert s[|a|] == '"';
    assert forall j :: 0 <= j < |a| ==> s[j] == a[j];
  }

  /** Splits the expected part of a message back into type names. */
  function SplitNames(s: string): seq<string>
    decreases |s|
  {
    var i := FirstQuote(s);
    if i == |s| || |s| < i + |Separator| then [s]
    else [s[..i]] + SplitNames(s[i + |Separator|..])
  }

  /** Splitting an imploded list gives the list back. */
  lemma {:induction false} SplitImplode(names: seq<string>)
    requires |names| > 0
    requires forall i :: 0 <= i < |names| ==> Unquoted(names[i])
    ensures SplitNames(Implode(Separator, names)) == names
  {
    if |names| == 1 {
      assert Implode(Separator, names) == names[0];
    } else {
      var a, rest := names[0], Implode(Separator, names[1..]);
      var s := Implode(Separator, names);
      assert s == a + (Separator + rest);
      FirstQuoteOfConcat(a, Separator + rest);
      assert s[..|a|] == a;
      assert s[|a| + |Separator|..] == rest;
      SplitImplode(names[1..]);
      assert [a] + names[1..] == names;
    }
  }

  /** Reads the provided type and the expected names back out of a message. */
  function ParseMessage(m: string): Option<Exception>
  {
    if |m| < |Opening| + |Closing| || m[..|Opening|] != Opening
       || m[|m| - |Closing|..] != Closing
    then None
    else ParseBody(m[|Opening|..|m| - |Closing|])
  }

  /** Reads what lies between `Opening` and `Closing`. */
  function ParseBody(body: string): Option<Exception>
  {
    var i := FirstQuote(body);
    if |body| < i + |Middle| || body[i..i + |Middle|] != Middle then None
    else Some(InvalidArgumentException(body[..i], SplitNames(body[i + |Middle|..])))
  }

  lemma ParseEnvelope(body: string)
    ensures ParseMessage(Opening + body + Closing) == ParseBody(body)
  {
    var m := Opening + body + Closing;
    assert m[..|Opening|] == Opening;
    assert m[|m| - |Closing|..] == Closing;
    assert m[|Opening|..|m| - |Closing|] == body;
  }

  lemma ParseBodyOf(provided: string, joined: string)
    requires Unquoted(provided)
    ensures ParseBody(provided + Middle + joined)
         == Some(InvalidArgumentException(provided, SplitNames(joined)))
  {
    var body := provided + Middle + joined;
    assert body == provided + (Middle + joined);
    FirstQuoteOfConcat(provided, Middle + joined);
    var i := |provided|;
    assert body[i..i + |Middle|] == Middle;
    assert body[..i] == provided;
    assert body[i + |Middle|..] == joined;
  }

  /** The message determines the exception it was built from. */
  lemma MessageRoundTrip(e: Exception)
    requires Unquoted(e.provided)
    requires |e.expected| > 0
    requires forall i :: 0 <= i < |e.expected| ==> Unquoted(e.expected[i])
    ensures ParseMessage(Message(e)) == Some(e)
  {
    var joined := Implode(Separator, e.expected);
    var body := e.provided + Middle + joined;
    assert Message(e) == Opening + body + Closing;
    ParseEnvelope(body);
    ParseBodyOf(e.provided, joined);
    SplitImplode(e.expected);
  }

  // ---------------------------------------------------------------------
  // Counting separators.

  /** Number of double quotes in `s`. */
  function Quotes(s: string): nat
  {
    if |s| == 0 then 0 else (if s[0] == '"' then 1 else 0) + Quotes(s[1..])
  }

  lemma {:induction false} QuotesOfConcat(a: string, b: string)
    ensures Quotes(a + b) == Quotes(a) + Quotes(b)
  {
    if |a| > 0 {
      assert (a + b)[1..] == a[1..] + b;
      QuotesOfConcat(a[1..], b);
    } else {
      assert a + b == b;
    }
  }

  lemma {:induction false} UnquotedHasNoQuotes(s: string)
    requires Unquoted(s)
    ensures Quotes(s) == 0
  {
    if |s| > 0 {
      assert forall j :: 0 <= j < |s| - 1 ==> s[1..][j] == s[j + 1];
      UnquotedHasNoQuotes(s[1..]);
    }
  }

  /** Imploding n quote-free names places exactly n - 1 separators (two quotes each). */
  lemma {:induction false} SeparatorCount(names: seq<string>)
    requires |names| > 0
    requires forall i :: 0 <= i < |names| ==> Unquoted(names[i])
    ensures Quotes(Implode(Separator, names)) == 2 * (|names| - 1)
  {
    UnquotedHasNoQuotes(names[0]);
    if |names| > 1 {
      var rest := Implode(Separator, names[1..]);
      assert Implode(Separator, names) == names[0] + (Separator + rest);
      QuotesOfConcat(names[0], Separator + rest);
      QuotesOfConcat(Separator, rest);
      assert Quotes(Separator) == 2;
      SeparatorCount(names[1..]);
    }
  }
}

=== FILE: php.dfy ===
/** The parts of the PHP runtime the cache code depends on: its dynamically
    typed values, `gettype`, and `\DateTime` arithmetic in whole seconds. */
module Php {

  import opened Results

  /** A PHP value, as passed to an untyped parameter or stored as a payload.
      `Instant` is a `\DateTimeInterface`, held as a Unix timestamp in seconds;
      `Interval` is a `\DateInterval`, held as a signed number of seconds;
      `Other` stands for arrays, floats, resources and any other object, and
      carries the name `gettype` reports for it, which is never the name of
      one of the other cases. */
  datatype Mixed =
    | Null
    | Bool(b: bool)
    | Int(i: int)
    | Str(s: string)
    | Instant(at: int)
    | Interval(seconds: int)
    | Other(typeName: OtherTypeName)

  /** A `gettype` name other than those of the scalar cases above, such as
      "array", "double", "resource" or "object". */
  type OtherTypeName = name: string | name !in {"NULL", "boolean", "integer", "string"}
    witness "array"

  /** `gettype($m)`: the type name that goes into exception messages. Each
      scalar name is reported for exactly one case. */
  function TypeName(m: Mixed): (name: string)
    ensures name == "NULL" <==> m.Null?
    ensures name == "boolean" <==> m.Bool?
    ensures name == "integer" <==> m.Int?
    ensures name == "string" <==> m.Str?
    ensures m.Instant? || m.Interval? ==> name == "object"
  {
    match m
    case Null => "NULL"
    case Bool(_) => "boolean"
    case Int(_) => "integer"
    case Str(_) => "string"
    case Instant(_) => "object"
    case Interval(_) => "object"
    case Other(name) => name
  }

  /** Seconds in a day; calendar effects (DST, leap seconds) are not modelled. */
  const DaySeconds: int := 86400

  /** `(new \DateTime())->modify('+N days')` evaluated at instant `now`. */
  function PlusDays(now: int, days: int): int
  {
    now + days * DaySeconds
  }

  /** Index of the first element of `keys` that is not a PHP string, or
      `|keys|` when they all are. */
  function FirstNonString(keys: seq<Mixed>): (i: nat)
    ensures i <= |keys|
    ensures forall j :: 0 <= j < i ==> keys[j].Str?
    ensures i < |keys| ==> !keys[i].Str?
  {
    if |keys| == 0 then 0
    else if !keys[0].Str? then 0
    else 1 + FirstNonString(keys[1..])
  }

  /** The ASCII digit for `d`. */
  function Digit(d: int): char
    requires 0 <= d < 10
  {
    ('0' as int + d) as char
  }

  /** The decimal digits of `n`, most significant first, with no leading
      zero. */
  function NatDigits(n: nat): (s: string)
    ensures CanonicalDigits(s)
    ensures s == "0" <==> n == 0
    decreases n
  {
    if n < 10 then [Digit(n)] else NatDigits(n / 10) + [Digit(n % 10)]
  }

  /** A non-empty string of decimal digits with no leading zero, unless it
      is "0" itself. */
  predicate CanonicalDigits(s: string)
  {
    && |s| > 0
    && (forall i :: 0 <= i < |s| ==> '0' <= s[i] <= '9')
    && (s[0] == '0' ==> s == "0")
  }

  /** The form PHP gives an integer as a string: canonical digits, preceded
      by `-` for a negative number, and never "-0". */
  predicate Canonical(s: string)
  {
    if |s| > 0 && s[0] == '-' then CanonicalDigits(s[1..]) && s[1..] != "0"
    else CanonicalDigits(s)
  }

  /** How PHP writes an integer as a string: an optional `-` and the digits. */
  function Decimal(i: int): (s: string)
    ensures Canonical(s)
  {
    if i < 0 then "-" + NatDigits(-i) else NatDigits(i)
  }

  /** The number a string of decimal digits denotes. */
  function DigitsValue(s: string): nat
    decreases |s|
  {
    if |s| == 0 then 0
    else
      var d := s[|s| - 1] as int - '0' as int;
      DigitsValue(s[..|s| - 1]) * 10 + (if 0 <= d < 10 then d else 0)
  }

  /** Reading a decimal back: an optional `-` and the digits' value. */
  function ParseDecimal(s: string): int
  {
    if |s| > 0 && s[0] == '-' then -(DigitsValue(s[1..]) as int) else DigitsValue(s)
  }

  lemma {:induction false} NatDigitsValue(n: nat)
    ensures DigitsValue(NatDigits(n)) == n
    decreases n
  {
    if n >= 10 {
      var s := NatDigits(n / 10) + [Digit(n % 10)];
      assert s[..|s| - 1] == NatDigits(n / 10);
      NatDigitsValue(n / 10);
    }
  }

  /** `Decimal` is injective: parsing gives the integer back. */
  lemma DecimalRoundTrip(i: int)
    ensures ParseDecimal(Decimal(i)) == i
  {
    if i < 0 {
      assert ("-" + NatDigits(-i))[1..] == NatDigits(-i);
      NatDigitsValue(-i);
    } else {
      NatDigitsValue(i);
    }
  }

  /** Canonical digits other than "0" denote a positive number. */
  lemma {:induction false} CanonicalDigitsPositive(s: string)
    requires CanonicalDigits(s) && s != "0"
    ensures DigitsValue(s) > 0
    decreases |s|
  {
    if |s| > 1 {
      var prefix := s[..|s| - 1];
      assert prefix[0] == s[0];
      CanonicalDigitsPositive(prefix);
    }
  }

  /** Canonical digits are exactly the digits of the number they denote. */
  lemma {:induction false} CanonicalDigitsAreNatDigits(s: string)
    requires CanonicalDigits(s)
    ensures NatDigits(DigitsValue(s)) == s
    decreases |s|
  {
    var c := s[|s| - 1];
    var d := c as int - '0' as int;
    if |s| == 1 {
      assert s == [c];
    } else {
      var prefix := s[..|s| - 1];
      assert prefix[0] == s[0];
      CanonicalDigitsPositive(prefix);
      CanonicalDigitsAreNatDigits(prefix);
      var n := DigitsValue(s);
      assert n == DigitsValue(prefix) * 10 + d;
      assert n / 10 == DigitsValue(prefix) && n % 10 == d;
      assert s == prefix + [c];
    }
  }

  /** A canonical string is the decimal form of the integer it denotes, so
      `Canonical(s) && ParseDecimal(s) == i` holds of `Decimal(i)` alone. */
  lemma CanonicalIsDecimal(s: string)
    requires Canonical(s)
    ensures Decimal(ParseDecimal(s)) == s
  {
    if |s| > 0 && s[0] == '-' {
      var t := s[1..];
      CanonicalDigitsPositive(t);
      CanonicalDigitsAreNatDigits(t);
      assert s == "-" + t;
    } else {
      CanonicalDigitsAreNatDigits(s);
    }
  }

  /** Passing `m` to a parameter declared `string` in coercive typing mode:
      a string as is, an integer as its decimal form, a boolean as "1" or
      "". Null, dates, intervals and the values `Other` stands for are
      refused with a `TypeError` (`None`). */
  function StringArgument(m: Mixed): (r: Option<string>)
    ensures r.Some? <==> m.Str? || m.Int? || m.Bool?
    ensures m.Str? ==> r == Some(m.s)
    ensures m.Int? ==> r.Some? && Canonical(r.value) && ParseDecimal(r.value) == m.i
    ensures m.Bool? ==> r.Some? && (r.value == "1" <==> m.b) && (r.value == "" <==> !m.b)
  {
    match m
    case Str(s) => Some(s)
    case Int(i) => DecimalRoundTrip(i); Some(Decimal(i))
    case Bool(b) => Some(if b then "1" else "")
    case _ => None
  }
}

=== FILE: redis_cache_item.dfy ===
/** `RedisCacheItem` of php-redis-cache: a cache entry's key, payload, hit flag
    and optional expiration instant, with the PSR-6 fluent setters. The PHP
    object is mutated in place and returned; here each setter returns the
    updated item, and a thrown exception is an `Err` that leaves the caller's
    item as it was. */
module RedisCacheItem {

  import opened Results
  import opened Php
  import opened InvalidArgument

  /** `DEFAULT_EXPIRATION_SECONDS`; the code uses it as a number of DAYS. */
  const DefaultExpirationSeconds: int := 60

  /** The instant `setDefaultExpiration` picks: 60 days after `now`. */
  function DefaultExpiration(now: int): int
  {
    PlusDays(now, DefaultExpirationSeconds)
  }

  /** The fields are the getters: `getKey`, `get`, `isHit`; `expiration` is
      the private `\DateTime|null`, as a timestamp. */
  datatype Item = Item(key: string, value: Mixed, isHit: bool, expiration: Option<int>)

  /** `createEmpty($key)`: a miss. */
  function CreateEmpty(key: string): (item: Item)
    ensures item.key == key && !item.isHit && item.value == Null
    ensures item.expiration == None
  {
    Item(key, Null, false, None)
  }

  /** `create($key, $value)`: a hit carrying `value`. */
  function Create(key: string, value: Mixed): (item: Item)
    ensures item.key == key && item.isHit && item.value == value
    ensures item.expiration == None
  {
    Item(key, value, true, None)
  }

  /** `set($value)`: only the payload changes. */
  function Set(item: Item, value: Mixed): (r: Item)
    ensures r.value == value
    ensures r.key == item.key && r.isHit == item.isHit && r.expiration == item.expiration
  {
    item.(value := value)
  }

  /** `setDefaultExpiration()`: expire 60 days after `now`; nothing else
      changes. */
  function SetDefaultExpiration(item: Item, now: int): (r: Item)
    ensures r.expiration == Some(now + 60 * DaySeconds)
    ensures r.key == item.key && r.value == item.value && r.isHit == item.isHit
  {
    item.(expiration := Some(DefaultExpiration(now)))
  }

  /** The exception `expiresAt` throws for a bad argument: it names the
      argument's type and lists the two accepted ones. */
  function ExpiresAtError(arg: Mixed): (e: Exception)
    ensures e.provided == TypeName(arg)
    ensures Message(e) == Opening + TypeName(arg) + Middle + ("DateTimeInterface" + Separator + "null") + Closing
  {
    var expected := ["DateTimeInterface", "null"];
    assert expected[1..] == ["null"];
    assert Implode(Separator, expected) == "DateTimeInterface" + Separator + "null";
    InvalidArgumentException(TypeName(arg), expected)
  }

  /** The exception `expiresAfter` throws for a bad argument: it names the
      argument's type and lists the three accepted ones. */
  function ExpiresAfterError(arg: Mixed): (e: Exception)
    ensures e.provided == TypeName(arg)
    ensures Message(e) == Opening + TypeName(arg) + Middle
                          + ("DateTimeInterface" + Separator + ("int" + Separator + "null")) + Closing
  {
    var expected := ["DateTimeInterface", "int", "null"];
    assert expected[1..] == ["int", "null"] && expected[1..][1..] == ["null"];
    assert Implode(Separator, expected[1..]) == "int" + Separator + "null";
    assert Implode(Separator, expected) == "DateTimeInterface" + Separator + ("int" + Separator + "null");
    InvalidArgumentException(TypeName(arg), expected)
  }

  /** `expiresAt($expiration)` evaluated at instant `now`. */
  function ExpiresAt(item: Item, expiration: Mixed, now: int): (r: Result<Item, Exception>)
    ensures r.Ok? <==> expiration.Null? || expiration.Instant?
    ensures r.Ok? ==> r.value.key == item.key && r.value.value == item.value
                      && r.value.isHit == item.isHit
    ensures expiration.Instant? ==> r.Ok? && r.value.expiration == Some(expiration.at)
    ensures expiration.Null? ==> r.Ok? && r.value.expiration == Some(now + 60 * DaySeconds)
    ensures r.Err? ==> r.error.provided == TypeName(expiration)
                       && r.error.expected == ["DateTimeInterface", "null"]
  {
    match expiration
    case Null => Ok(SetDefaultExpiration(item, now))
    case Instant(at) => Ok(item.(expiration := Some(at)))
    case _ => Err(ExpiresAtError(expiration))
  }

  /** `expiresAfter($time)` evaluated at instant `now`. An integer is a number
      of days, because the code formats it into a `'+%s days'` modifier. */
  function ExpiresAfter(item: Item, time: Mixed, now: int): (r: Result<Item, Exception>)
    ensures r.Ok? <==> time.Null? || time.Int? || time.Interval?
    ensures r.Ok? ==> r.value.key == item.key && r.value.value == item.value
                      && r.value.isHit == item.isHit
    ensures time.Int? ==> r.Ok? && r.value.expiration == Some(now + time.i * DaySeconds)
    ensures time.Interval? ==> r.Ok? && r.value.expiration == Some(now + time.seconds)
    ensures time.Null? ==> r.Ok? && r.value.expiration == Some(now + 60 * DaySeconds)
    ensures r.Err? ==> r.error.provided == TypeName(time)
                       && r.error.expected == ["DateTimeInterface", "int", "null"]
  {
    match time
    case Null => Ok(SetDefaultExpiration(item, now))
    case Int(days) => Ok(item.(expiration := Some(PlusDays(now, days))))
    case Interval(seconds) => Ok(item.(expiration := Some(now + seconds)))
    case _ => Err(ExpiresAfterError(time))
  }

  /** Every accepted `expiresAfter` argument amounts to `expiresAt` of an
      instant computed from `now`; `null` picks the same default for both. */
  lemma ExpiresAfterIsExpiresAt(item: Item, time: Mixed, now: int)
    requires time.Null? || time.Int? || time.Interval?
    ensures time.Null? ==> ExpiresAfter(item, time, now) == ExpiresAt(item, Null, now)
    ensures time.Int? ==>
      ExpiresAfter(item, time, now) == ExpiresAt(item, Instant(PlusDays(now, time.i)), now)
    ensures time.Interval? ==>
      ExpiresAfter(item, time, now) == ExpiresAt(item, Instant(now + time.seconds), now)
  {
  }

  /** An integer `expiresAfter` is not read as seconds: for any non-zero
      count the expiration differs from `now + n`. */
  lemma ExpiresAfterIntIsNotSeconds(item: Item, n: int, now: int)
    requires n != 0
    ensures ExpiresAfter(item, Int(n), now).value.expiration != Some(now + n)
  {
  }

  /** `expiresAfter` rejects a `\DateTimeInterface` although its exception
      names that type among the accepted ones: it accepts `\DateInterval`. */
  lemma ExpiresAfterRejectsInstant(item: Item, at: int, now: int)
    ensures ExpiresAfter(item, Instant(at), now).Err?
    ensures "DateTimeInterface" in ExpiresAfter(item, Instant(at), now).error.expected
    ensures ExpiresAt(item, Instant(at), now).Ok?
  {
  }

  /** A miss keeps reporting a miss after `set`, now with a non-null payload:
      the code does not keep "no hit implies null value". */
  lemma SetOnMissKeepsMiss(key: string, value: Mixed)
    ensures !Set(CreateEmpty(key), value).isHit
    ensures Set(CreateEmpty(key), value).value == value
  {
  }

  /** Setting an absolute expiration twice is the same as setting it once. */
  lemma ExpiresAtIdempotent(item: Item, expiration: Mixed, now: int)
    requires ExpiresAt(item, expiration, now).Ok?
    ensures ExpiresAt(ExpiresAt(item, expiration, now).value, expiration, now)
         == ExpiresAt(item, expiration, now)
  {
  }

  // ---------------------------------------------------------------------
  // Sequences of calls on one item.

  /** A public mutator call on a php-redis-cache item and its argument;
      `expiresAfter` takes any PHP value here. */
  datatype Call = SetCall(value: Mixed) | ExpiresAtCall(expiration: Mixed) | ExpiresAfterCall(time: Mixed)

  /** One call on a php-redis-cache item at `now`; a call that throws leaves
      the item as it was. */
  function Step(item: Item, call: Call, now: int): Item
  {
    match call
    case SetCall(v) => Set(item, v)
    case ExpiresAtCall(e) =>
      (match ExpiresAt(item, e, now) case Ok(r) => r case Err(_) => item)
    case ExpiresAfterCall(t) =>
      (match ExpiresAfter(item, t, now) case Ok(r) => r case Err(_) => item)
  }

  /** Calls on a php-redis-cache item, one after another, all at `now`. */
  function Run(item: Item, calls: seq<Call>, now: int): Item
    decreases |calls|
  {
    if |calls| == 0 then item else Run(Step(item, calls[0], now), calls[1..], now)
  }

  /** The payload after a sequence of calls is the last `set` argument, or the
      original payload when there was no `set`. */
  function LastSet(value: Mixed, calls: seq<Call>): Mixed
    decreases |calls|
  {
    if |calls| == 0 then value
    else LastSet(if calls[0].SetCall? then calls[0].value else value, calls[1..])
  }

  /** No sequence of calls changes the key or the hit flag, and the payload is
      whatever was `set` last. */
  lemma {:induction false} RunKeepsIdentity(item: Item, calls: seq<Call>, now: int)
    ensures Run(item, calls, now).key == item.key
    ensures Run(item, calls, now).isHit == item.isHit
    ensures Run(item, calls, now).value == LastSet(item.value, calls)
    decreases |calls|
  {
    if |calls| > 0 {
      RunKeepsIdentity(Step(item, calls[0], now), calls[1..], now);
    }
  }
}

=== FILE: redis_cache_item_pool.dfy ===
/** `RedisCacheItemPool` of php-redis-cache: the PSR-6 pool over a Redis
    client. The client is replaced by the key-value map it holds plus two
    oracles for what the server reports: `ttl(key)`, the remaining
    time-to-live, and `reply(key, value)`, the reply to a SET. */
module RedisCacheItemPool {

  import opened Results
  import opened Php
  import opened InvalidArgument
  import opened RedisCacheItem

  /** The Redis database and the deferred queue (PHP array keyed by item key,
      in insertion order). */
  datatype Pool = Pool(store: map<string, Mixed>, queue: seq<Item>)

  /** `new RedisCacheItemPool($client)`: the queue starts empty. */
  function NewPool(store: map<string, Mixed>): (p: Pool)
    ensures p.store == store && p.queue == []
  {
    Pool(store, [])
  }

  /** The exception for a key that is not a PHP string. */
  function KeyError(key: Mixed): Exception
  {
    InvalidArgumentException(TypeName(key), ["string"])
  }

  /** The key names present in a queue of php-redis-cache items. */
  function QueuedKeys(queue: seq<Item>): set<string>
  {
    set i | 0 <= i < |queue| :: queue[i].key
  }

  /** No key is queued twice in a queue of php-redis-cache items. */
  predicate Distinct(queue: seq<Item>)
  {
    forall i, j :: 0 <= i < j < |queue| ==> queue[i].key != queue[j].key
  }

  /** The php-redis-cache item queued under `key`, if any. */
  function Lookup(queue: seq<Item>, key: string): (r: Option<Item>)
    ensures r.Some? <==> key in QueuedKeys(queue)
    ensures r.Some? ==> r.value.key == key && r.value in queue
    decreases |queue|
  {
    if |queue| == 0 then None
    else if queue[0].key == key then Some(queue[0])
    else
      assert forall i :: 0 <= i < |queue| - 1 ==> queue[1..][i] == queue[i + 1];
      Lookup(queue[1..], key)
  }

  /** `getItem($key)` evaluated at `now`. */
  function GetItem(p: Pool, key: Mixed, now: int, ttl: string -> int): (r: Result<Item, Exception>)
    ensures r.Err? <==> !key.Str?
    ensures r.Err? ==> r.error == KeyError(key)
    ensures key.Str? && key.s !in p.store ==> r == Ok(CreateEmpty(key.s))
    ensures key.Str? && key.s in p.store ==>
      && r.Ok? && r.value.key == key.s && r.value.isHit
      && r.value.value == p.store[key.s]
      && Ok(r.value) == ExpiresAfter(Create(key.s, p.store[key.s]), Int(ttl(key.s)), now)
  {
    if !key.Str? then Err(KeyError(key))
    else if key.s !in p.store then Ok(CreateEmpty(key.s))
    else Ok(ExpiresAfter(Create(key.s, p.store[key.s]), Int(ttl(key.s)), now).value)
  }

  /** `getItems($keys)`: `getItem` of every key, in order; the first key that
      is not a string aborts the whole call. */
  function GetItems(p: Pool, keys: seq<Mixed>, now: int, ttl: string -> int)
    : (r: Result<seq<Item>, Exception>)
    ensures r.Ok? <==> FirstNonString(keys) == |keys|
    ensures r.Ok? ==> |r.value| == |keys|
    ensures r.Ok? ==> forall i :: 0 <= i < |keys| ==> Ok(r.value[i]) == GetItem(p, keys[i], now, ttl)
    ensures r.Err? ==> r.error == KeyError(keys[FirstNonString(keys)])
    decreases |keys|
  {
    if |keys| == 0 then Ok([])
    else match GetItem(p, keys[0], now, ttl)
      case Err(e) => Err(e)
      case Ok(item) =>
        match GetItems(p, keys[1..], now, ttl)
        case Err(e) => Err(e)
        case Ok(rest) => Ok([item] + rest)
  }

  /** `hasItem($key)`: the store's `exists`. */
  function HasItem(p: Pool, key: Mixed): (r: Result<bool, Exception>)
    ensures r.Err? <==> !key.Str?
    ensures r.Err? ==> r.error == KeyError(key)
    ensures r.Ok? ==> (r.value <==> key.s in p.store)
  {
    if !key.Str? then Err(KeyError(key)) else Ok(key.s in p.store)
  }

  /** `clear()`: `flushdb`, then report whether `dbsize` is zero. */
  function Clear(p: Pool): (out: (bool, Pool))
    ensures out.1.store == map[] && out.1.queue == p.queue
    ensures out.0
  {
    var flushed := p.(store := map[]);
    (|flushed.store| == 0, flushed)
  }

  /** `deleteItem($key)`: `del`, then report that the key no longer exists. */
  function DeleteItem(p: Pool, key: Mixed): (out: (Result<bool, Exception>, Pool))
    ensures out.0.Err? <==> !key.Str?
    ensures out.0.Err? ==> out.0.error == KeyError(key) && out.1 == p
    ensures out.0.Ok? ==> out.1.store == p.store - {key.s} && out.1.queue == p.queue
    ensures out.0.Ok? ==> out.0.value
  {
    if !key.Str? then (Err(KeyError(key)), p)
    else
      var deleted := p.(store := p.store - {key.s});
      match HasItem(deleted, key)
      case Ok(present) => (Ok(!present), deleted)
  }

  /** The string keys among `keys`. */
  function StringKeys(keys: seq<Mixed>): set<string>
  {
    set i | 0 <= i < |keys| && keys[i].Str? :: keys[i].s
  }

  lemma StringKeysOfCons(keys: seq<Mixed>)
    requires |keys| > 0 && keys[0].Str?
    ensures StringKeys(keys) == {keys[0].s} + StringKeys(keys[1..])
  {
    assert forall i :: 0 <= i < |keys| - 1 ==> keys[1..][i] == keys[i + 1];
    forall k | k in StringKeys(keys)
      ensures k in {keys[0].s} + StringKeys(keys[1..])
    {
      var i :| 0 <= i < |keys| && keys[i].Str? && keys[i].s == k;
      if i > 0 {
        assert keys[1..][i - 1] == keys[i];
      }
    }
  }

  /** `deleteItems($keys)`: `deleteItem` on every key with no short-circuit,
      true iff every call returned true. A key that is not a string throws
      after the keys before it have been deleted. */
  function DeleteItems(p: Pool, keys: seq<Mixed>): (out: (Result<bool, Exception>, Pool))
    ensures out.1.queue == p.queue
    ensures out.0.Err? <==> FirstNonString(keys) < |keys|
    ensures out.0.Err? ==> out.0.error == KeyError(keys[FirstNonString(keys)])
    ensures out.0.Ok? ==> out.0.value
    decreases |keys|
  {
    if |keys| == 0 then (Ok(true), p)
    else
      var (first, p1) := DeleteItem(p, keys[0]);
      match first
      case Err(e) => (Err(e), p1)
      case Ok(deleted) =>
        var (rest, p2) := DeleteItems(p1, keys[1..]);
        match rest
        case Err(e) => (Err(e), p2)
        case Ok(allDeleted) => (Ok(deleted && allDeleted), p2)
  }

  /** What `deleteItems` removes: every string key before the first key that
      is not a string (all of them when the call succeeds), and nothing else. */
  lemma {:induction false} DeleteItemsStore(p: Pool, keys: seq<Mixed>)
    ensures DeleteItems(p, keys).1.store == p.store - StringKeys(keys[..FirstNonString(keys)])
    decreases |keys|
  {
    var f := FirstNonString(keys);
    if |keys| > 0 && keys[0].Str? {
      var p1 := DeleteItem(p, keys[0]).1;
      DeleteItemsStore(p1, keys[1..]);
      StringKeysOfCons(keys[..f]);
      assert keys[..f][1..] == keys[1..][..FirstNonString(keys[1..])];
    } else {
      assert keys[..f] == [];
    }
  }

  /** Whether the server's reply to writing `item` is the status `'OK'`. */
  predicate Acknowledged(reply: (string, Mixed) -> Mixed, item: Item)
  {
    reply(item.key, item.value) == Str("OK")
  }

  /** `save($item)`: SET the payload under the key, with no TTL whatever the
      item's expiration, and report whether the reply is `'OK'`. */
  function Save(p: Pool, item: Item, reply: (string, Mixed) -> Mixed): (out: (bool, Pool))
    ensures out.0 <==> Acknowledged(reply, item)
    ensures out.1.store.Keys == p.store.Keys + {item.key}
    ensures out.1.store[item.key] == item.value
    ensures forall k :: k in p.store && k != item.key ==> out.1.store[k] == p.store[k]
    ensures out.1.queue == p.queue
  {
    (reply(item.key, item.value) == Str("OK"), p.(store := p.store[item.key := item.value]))
  }

  /** `saveDeferred($item)`: queue the item unless its key is already queued. */
  function SaveDeferred(p: Pool, item: Item): (out: (bool, Pool))
    ensures out.0 <==> item.key !in QueuedKeys(p.queue)
    ensures !out.0 ==> out.1 == p
    ensures out.0 ==> out.1.store == p.store && out.1.queue == p.queue + [item]
    ensures Lookup(out.1.queue, item.key) == Some(if out.0 then item else Lookup(p.queue, item.key).value)
    ensures forall k :: k != item.key ==> Lookup(out.1.queue, k) == Lookup(p.queue, k)
    ensures Distinct(p.queue) ==> Distinct(out.1.queue)
  {
    if item.key in QueuedKeys(p.queue) then (false, p)
    else
      var p' := p.(queue := p.queue + [item]);
      LookupAppend(p.queue, item);
      (true, p')
  }

  lemma {:induction false} LookupAppend(queue: seq<Item>, item: Item)
    requires item.key !in QueuedKeys(queue)
    ensures Lookup(queue + [item], item.key) == Some(item)
    ensures forall k :: k != item.key ==> Lookup(queue + [item], k) == Lookup(queue, k)
    decreases |queue|
  {
    if |queue| > 0 {
      assert (queue + [item])[1..] == queue[1..] + [item];
      assert item.key !in QueuedKeys(queue[1..]) by {
        assert forall i :: 0 <= i < |queue| - 1 ==> queue[1..][i] == queue[i + 1];
      }
      LookupAppend(queue[1..], item);
    }
  }

  /** No later item in `items` has the key of `items[i]`. */
  predicate LastWithKey(items: seq<Item>, i: int)
    requires 0 <= i < |items|
  {
    forall j :: i < j < |items| ==> items[j].key != items[i].key
  }

  lemma QueuedKeysOfCons(items: seq<Item>)
    requires |items| > 0
    ensures QueuedKeys(items) == {items[0].key} + QueuedKeys(items[1..])
  {
    assert forall i :: 0 <= i < |items| - 1 ==> items[1..][i] == items[i + 1];
    forall k | k in QueuedKeys(items) ensures k in {items[0].key} + QueuedKeys(items[1..]) {
      var i :| 0 <= i < |items| && items[i].key == k;
      if i > 0 { assert items[1..][i - 1] == items[i]; }
    }
  }

  /** The `foreach` of `commit`: `save` every item in order, true iff all were
      acknowledged. */
  function SaveAll(p: Pool, items: seq<Item>, reply: (string, Mixed) -> Mixed): (out: (bool, Pool))
    ensures out.0 <==> forall i :: 0 <= i < |items| ==> Acknowledged(reply, items[i])
    ensures out.1.queue == p.queue
    decreases |items|
  {
    if |items| == 0 then (true, p)
    else
      var (saved, p1) := Save(p, items[0], reply);
      var (allSaved, p2) := SaveAll(p1, items[1..], reply);
      assert forall i :: 0 <= i < |items| - 1 ==> items[1..][i] == items[i + 1];
      (saved && allSaved, p2)
  }

  /** `SaveAll` adds the written keys to the store and leaves every other key
      as it was. */
  lemma {:induction false} SaveAllKeeps(p: Pool, items: seq<Item>, reply: (string, Mixed) -> Mixed)
    ensures SaveAll(p, items, reply).1.store.Keys == p.store.Keys + QueuedKeys(items)
    ensures forall k :: k in p.store && k !in QueuedKeys(items) ==>
      SaveAll(p, items, reply).1.store[k] == p.store[k]
    decreases |items|
  {
    if |items| > 0 {
      SaveAllKeeps(Save(p, items[0], reply).1, items[1..], reply);
      QueuedKeysOfCons(items);
    }
  }

  /** Each written key ends with the payload of the last item carrying it. */
  lemma {:induction false} SaveAllStore(p: Pool, items: seq<Item>, reply: (string, Mixed) -> Mixed)
    ensures forall i :: 0 <= i < |items| && LastWithKey(items, i) ==>
      && items[i].key in SaveAll(p, items, reply).1.store
      && SaveAll(p, items, reply).1.store[items[i].key] == items[i].value
    decreases |items|
  {
    if |items| > 0 {
      var p1 := Save(p, items[0], reply).1;
      var rest := items[1..];
      SaveAllStore(p1, rest, reply);
      SaveAllKeeps(p1, rest, reply);
      QueuedKeysOfCons(items);
      assert SaveAll(p, items, reply).1 == SaveAll(p1, rest, reply).1;
      forall i | 0 <= i < |items| && LastWithKey(items, i)
        ensures items[i].key in SaveAll(p, items, reply).1.store
        ensures SaveAll(p, items, reply).1.store[items[i].key] == items[i].value
      {
        if i == 0 {
          assert forall j :: 0 <= j < |rest| ==> rest[j] == items[j + 1];
          assert items[0].key !in QueuedKeys(rest);
        } else {
          assert rest[i - 1] == items[i];
          assert LastWithKey(rest, i - 1);
        }
      }
    }
  }

  /** `commit()`: save every queued item; the queue is left as it was. */
  function Commit(p: Pool, reply: (string, Mixed) -> Mixed): (out: (bool, Pool))
    ensures out.0 <==> forall i :: 0 <= i < |p.queue| ==> Acknowledged(reply, p.queue[i])
    ensures |p.queue| == 0 ==> out == (true, p)
    ensures out.1.queue == p.queue
    ensures out.1.store.Keys == p.store.Keys + QueuedKeys(p.queue)
    ensures forall k :: k in p.store && k !in QueuedKeys(p.queue) ==> out.1.store[k] == p.store[k]
    ensures Distinct(p.queue) ==> forall i :: 0 <= i < |p.queue| ==> out.1.store[p.queue[i].key] == p.queue[i].value
  {
    SaveAllKeeps(p, p.queue, reply);
    SaveAllStore(p, p.queue, reply);
    SaveAll(p, p.queue, reply)
  }

  // ---------------------------------------------------------------------
  // Properties relating several calls.

  /** Expiration never reaches the store: two items that differ only in
      expiration save identically. */
  lemma SaveIgnoresExpiration(p: Pool, item: Item, e: Option<int>, reply: (string, Mixed) -> Mixed)
    ensures Save(p, item.(expiration := e), reply) == Save(p, item, reply)
  {
  }

  /** After a save, `getItem` finds a hit carrying the saved payload,
      whatever the server replied. */
  lemma SaveThenGetItem(p: Pool, item: Item, now: int, ttl: string -> int, reply: (string, Mixed) -> Mixed)
    ensures GetItem(Save(p, item, reply).1, Str(item.key), now, ttl).Ok?
    ensures GetItem(Save(p, item, reply).1, Str(item.key), now, ttl).value.isHit
    ensures GetItem(Save(p, item, reply).1, Str(item.key), now, ttl).value.value == item.value
  {
  }

  /** Deleting twice reports success both times and leaves the same store. */
  lemma DeleteItemTwice(p: Pool, key: string)
    ensures DeleteItem(p, Str(key)).0 == Ok(true)
    ensures DeleteItem(DeleteItem(p, Str(key)).1, Str(key)) == DeleteItem(p, Str(key))
  {
    assert p.store - {key} - {key} == p.store - {key};
  }

  /** After a clear nothing is found and the deferred queue survives. */
  lemma ClearThenHasItem(p: Pool, key: string)
    ensures HasItem(Clear(p).1, Str(key)) == Ok(false)
    ensures Clear(p).1.queue == p.queue
  {
  }

  /** Because commit does not drain the queue, committing again re-sends the
      same items and ends in the same store and queue, whatever the server
      replies the second time; that second result is read off the new
      replies alone. */
  lemma CommitTwice(p: Pool, first: (string, Mixed) -> Mixed, second: (string, Mixed) -> Mixed)
    ensures Commit(Commit(p, first).1, second).1 == Commit(p, first).1
    ensures Commit(Commit(p, first).1, second).0
        <==> forall i :: 0 <= i < |p.queue| ==> Acknowledged(second, p.queue[i])
  {
    var q := p.queue;
    var p1 := SaveAll(p, q, first).1;
    var p2 := SaveAll(p1, q, second).1;
    SaveAllKeeps(p, q, first);
    SaveAllKeeps(p1, q, second);
    SaveAllStore(p, q, first);
    SaveAllStore(p1, q, second);
    assert p2.store.Keys == p1.store.Keys;
    forall k | k in p2.store ensures p2.store[k] == p1.store[k] {
      if k in QueuedKeys(q) {
        var i :| 0 <= i < |q| && q[i].key == k;
        var last := LastIndex(q, i);
        assert p2.store[k] == q[last].value;
        assert p1.store[k] == q[last].value;
      }
    }
    assert p2.store == p1.store;
    assert p2 == p1;
  }

  /** The last index whose key is that of `items[i]`. */
  function LastIndex(items: seq<Item>, i: int): (j: int)
    requires 0 <= i < |items|
    ensures i <= j < |items| && items[j].key == items[i].key && LastWithKey(items, j)
    decreases |items| - i
  {
    if forall j :: i < j < |items| ==> items[j].key != items[i].key then i
    else
      var j :| i < j < |items| && items[j].key == items[i].key;
      LastIndex(items, j)
  }

  /** The deferred-write scenario: the second enqueue of key "a" is refused
      and commit persists the first payload. */
  lemma DeferredScenario(store: map<string, Mixed>, reply: (string, Mixed) -> Mixed)
    ensures var (first, p1) := SaveDeferred(NewPool(store), Create("a", Str("1")));
            var (second, p2) := SaveDeferred(p1, Create("a", Str("2")));
            && first && !second
            && Commit(p2, reply).1.store["a"] == Str("1")
  {
  }
}

=== FILE: results.dfy ===
/** The `Option` and `Result` values shared by both cache implementations. */
module Results {

  /** A value that may be absent (PHP's `null` where a typed value is expected). */
  datatype Option<+T> = None | Some(value: T)

  /** The outcome of a call that either returns normally or throws `error`. */
  datatype Result<+T, +E> = Ok(value: T) | Err(error: E)
}
